=== FILE: README.md ===
# spartan2-hyrax-mopro: witness reader and mobile FFI layer, in Dafny

This project models two parts of the mobile Spartan2/Hyrax prover. Nothing in it is executed. Every row of "## Model" below is a contract the Dafny verifier proves; the "## Left out" and "## Findings" sections are statements about the Rust source that are not themselves proved.

1. **The `.wtns` reader** (`load_witness_from_file`). It reads a circom/snarkjs binary witness file with this layout:
   - a 76-byte header:
     - the magic "wtns";
     - the version, at most 2;
     - the section count, 2;
     - a section 1 header: type 1, size 40, field size 32, a prime of 32 bytes, the witness length `n`;
     - a section 2 header: type 2, size `n * 32`;
   - then `n` field elements of 32 bytes each.

   `Wtns.Decode` is a pure function from the file's bytes to `Success(elements)` or `Failure(error)`. There is one `Error` variant per `panic!`/`expect` of the reader, and every short `read_exact` names the field it was reading.

   Whether 32 bytes are a canonical field element (`Scalar::from_repr`) is a parameter `canonical`, and a decoded `Scalar` keeps its bytes.

   The size check multiplies `witness_len * field_size` in `u32`. It is modelled under both build profiles:
   - a debug build panics on overflow (`MultiplyOverflow`);
   - a release build compares against the product modulo 2^32.

   The reader is paired with:
   - a declarative description of the accepted files (`Wtns.WellFormed`, by byte offsets);
   - an encoder (`WtnsWriter.Encode`), with round trips proved in both directions.

2. **The UniFFI entry points of `src/lib.rs`:**
   - the set-once `MOBILE_RESOURCES_PATH`;
   - the ordered search for the first missing resource file;
   - the result strings of every prover entry point, with a parser (`Report.Parse`) that reads each string back to the outcome it came from and accepts no other string;
   - the caught key-setup panic;
   - the save/enter/restore discipline of the working directory in the `mobile_*` wrappers.

   The provers, the file system and the process's working directory are parameters:
   - a prover is a function from the directory it runs in to a `Run`: it returned an `Outcome` (timings or an error), or it panicked;
   - file existence is a predicate `present`;
   - whether `set_current_dir` succeeds is a predicate `enterable`, with the error text `ioError`.

Modules:

| file | module | contents |
|---|---|---|
| wrappers.dfy | `Wrappers` | `Option`, `Result` |
| little_endian.dfy | `LittleEndian` | `byte`, little-endian `FromLe`/`ToLe` and their inverse lemmas |
| wtns.dfy | `Wtns` | the reader, the format by offsets, properties of the reader |
| wtns_writer.dfy | `WtnsWriter` | the encoder and both round trips |
| decimal.dfy | `Decimal` | decimal text of naturals (`{}` of a `u128`) and its reader |
| report.dfy | `Report` | result-string templates, `Format`, `Parse`, substring facts |
| mobile_ffi.dfy | `MobileFfi` | the entry points of `src/lib.rs` |

## Model

| member | source | states |
|---|---|---|
| Wtns.Decode | wallet-unit-poc/ecdsa-spartan2/src/mobile_jwt_circuit.rs:11-101 | The reader succeeds exactly on the files described by `WellFormed`. On success there are exactly `witness_len` elements, and element `i` comes from bytes `[76+32i, 76+32i+32)`, in file order. |
| Wtns.ParseHeader | wallet-unit-poc/ecdsa-spartan2/src/mobile_jwt_circuit.rs:16-86 | The header stage passes exactly when every fixed-offset field holds an accepted value. It then yields the little-endian version at offset 4, the prime bytes 28..60, the witness length at 60 and the section 2 size at 68. |
| Wtns.ParsePreamble | wallet-unit-poc/ecdsa-spartan2/src/mobile_jwt_circuit.rs:16-61 | Magic, version, section count, section 1 type and size, and field size are checked in file order. The stage passes exactly when all of them are accepted, and then yields the version. |
| Wtns.ParseWitnessSection | wallet-unit-poc/ecdsa-spartan2/src/mobile_jwt_circuit.rs:67-86 | Witness length, section 2 type and section 2 size are read. The stage passes exactly when the type is 2 and the size matches the `u32` product under the build profile. |
| Wtns.MulU32 | wallet-unit-poc/ecdsa-spartan2/src/mobile_jwt_circuit.rs:84 | The `u32` product is exact while it is below 2^32. Past that, a debug build has no value (the overflow panic) and a release build yields the product modulo 2^32. |
| Wtns.ReadElements | wallet-unit-poc/ecdsa-spartan2/src/mobile_jwt_circuit.rs:89-100 | The element loop succeeds exactly when all remaining chunks are present and canonical. The output keeps file order, and a failure is always a short read or a non-canonical element. |
| Wtns.Read | wallet-unit-poc/ecdsa-spartan2/src/mobile_jwt_circuit.rs:24-25 | `read_exact` of `n` bytes succeeds exactly when `n` bytes remain at the position, yields those bytes, and otherwise fails with the short read of the field being read. |
| Wtns.ReadU32 | wallet-unit-poc/ecdsa-spartan2/src/mobile_jwt_circuit.rs:24-26 | A four-byte read yields a `u32` whose little-endian encoding is exactly the four bytes at the position, and fails with a short read exactly when fewer remain. |
| Wtns.ReadU64 | wallet-unit-poc/ecdsa-spartan2/src/mobile_jwt_circuit.rs:48-50 | An eight-byte read yields a `u64` whose little-endian encoding is exactly the eight bytes at the position, and fails with a short read exactly when fewer remain. |
| Wtns.MagicChecked | wallet-unit-poc/ecdsa-spartan2/src/mobile_jwt_circuit.rs:16-21 | Fewer than 4 bytes is a short read of the magic. Any input whose first four bytes are not "wtns" is rejected with `InvalidHeader`. |
| Wtns.VersionChecked | wallet-unit-poc/ecdsa-spartan2/src/mobile_jwt_circuit.rs:23-29 | After a good magic, a little-endian version above 2 is rejected, and this is the only way to get `UnsupportedVersion`. Versions 0, 1 and 2 pass. |
| Wtns.SectionOneChecked | wallet-unit-poc/ecdsa-spartan2/src/mobile_jwt_circuit.rs:31-53 | A section count other than 2 is rejected, then a section 1 type other than 1, then a section 1 size other than 40. Each error carries the value read. |
| Wtns.FieldSizeChecked | wallet-unit-poc/ecdsa-spartan2/src/mobile_jwt_circuit.rs:55-61 | Once the earlier checks pass, the field size is rejected if and only if it is not 32. |
| Wtns.PrimeIgnored | wallet-unit-poc/ecdsa-spartan2/src/mobile_jwt_circuit.rs:63-65 | Two inputs that differ only in the 32 prime bytes decode to the same result, successes and errors alike. |
| Wtns.SectionTwoTypeChecked | wallet-unit-poc/ecdsa-spartan2/src/mobile_jwt_circuit.rs:72-78 | Once the earlier checks pass, section 2 is rejected if and only if its type is not 2. |
| Wtns.SectionTwoSizeChecked | wallet-unit-poc/ecdsa-spartan2/src/mobile_jwt_circuit.rs:80-86 | A section 2 size other than `witness_len * 32` is rejected while the product fits in `u32`. Past that, a debug build fails on the product and a release build compares against it modulo 2^32. |
| Wtns.ProfilesAgree | wallet-unit-poc/ecdsa-spartan2/src/mobile_jwt_circuit.rs:84 | When `witness_len * 32` fits in `u32`, debug and release builds decode every input identically. |
| Wtns.ReleaseWrapAtTwoToThe27 | wallet-unit-poc/ecdsa-spartan2/src/mobile_jwt_circuit.rs:84-86 | With 2^27 elements, a release build accepts a declared section 2 size of 0 and rejects the true size 2^32. A debug build panics on the multiplication. |
| Wtns.NonCanonicalRejected | wallet-unit-poc/ecdsa-spartan2/src/mobile_jwt_circuit.rs:95-96 | A non-canonical chunk makes the whole decode fail, and the error names the first such element. |
| Wtns.ShortInputRejected | wallet-unit-poc/ecdsa-spartan2/src/mobile_jwt_circuit.rs:90-92 | Input shorter than `76 + 32 * witness_len` bytes after a valid header is rejected. If no earlier element was bad, the error is the short read of the element the input ends in. |
| Wtns.TrailingBytesIgnored | wallet-unit-poc/ecdsa-spartan2/src/mobile_jwt_circuit.rs:89-100 | Appending bytes to an accepted file changes nothing, and the first `76 + 32 * witness_len` bytes already give the same result. There is no trailing-data check. |
| Wtns.PrefixDecides | wallet-unit-poc/ecdsa-spartan2/src/mobile_jwt_circuit.rs:89-100 | Any prefix that keeps every consumed byte decodes like the whole input, when either of them is well formed. |
| WtnsWriter.DecodeEncode | wallet-unit-poc/ecdsa-spartan2/src/mobile_jwt_circuit.rs:11-101 | Encoding canonical 32-byte elements under any accepted version and any prime, then decoding, gives back exactly those elements. This holds in both builds while `n * 32` fits in `u32`. |
| WtnsWriter.EncodeDecode | wallet-unit-poc/ecdsa-spartan2/src/mobile_jwt_circuit.rs:11-101 | Whatever a debug build accepts is exactly the encoding of its version, prime and decoded elements, up to the bytes the reader never consumes. |
| WtnsWriter.HeaderFields | wallet-unit-poc/ecdsa-spartan2/src/mobile_jwt_circuit.rs:16-86 | In an encoded header, each field reads back, at its offset, the value that was written. |
| LittleEndian.FromLeToLe | wallet-unit-poc/ecdsa-spartan2/src/mobile_jwt_circuit.rs:26 | Reading back the little-endian bytes of a number that fits gives the number. |
| LittleEndian.ToLeFromLe | wallet-unit-poc/ecdsa-spartan2/src/mobile_jwt_circuit.rs:50 | Writing back the value of little-endian bytes gives the same bytes. |
| MobileFfi.InitializeMobileEnvironment | src/lib.rs:43-49 | The call reports success if and only if the cell was unset, and otherwise reports "already initialized". Afterwards the cell holds the earlier path if there was one, and the given path otherwise. |
| MobileFfi.SetOnce | src/lib.rs:38-49 | Over any sequence of calls, the first call on an unset cell stores its path and is the only one to succeed. Every later call reports "already initialized", and the stored path never changes. |
| MobileFfi.Join | src/lib.rs:57-58 | The joined path starts with the base and ends with the relative path. Exactly one '/' is added between them when the base is non-empty and does not end in '/'; otherwise nothing is added. |
| MobileFfi.RequiredFiles | src/lib.rs:56-72 | Ten paths, all under the documents path; the first six end with the circuit file names and the last four with the key file names, in list order. |
| MobileFfi.RequiredFilesUnderDocumentsSlash | src/lib.rs:56-72 | For a documents path that already ends in '/', the ten checked paths are `<docs>circom/<file>` and `<docs>wallet-unit-poc/ecdsa-spartan2/keys/<key>`, with no doubled separator. |
| MobileFfi.RequiredFilesUnderDocuments | src/lib.rs:56-72 | The ten checked paths are the six circuit files under `<docs>/circom/` and then the four key files under `<docs>/wallet-unit-poc/ecdsa-spartan2/keys/`, in list order. |
| MobileFfi.CheckFiles | src/lib.rs:74-80 | For any file list, the success message comes back if and only if every file exists; otherwise the message names the first missing file. |
| MobileFfi.VerifyMobileResources | src/lib.rs:74-80 | The success message comes back if and only if all ten files exist. Otherwise the message is "Missing required file: " plus the first missing path in list order. |
| MobileFfi.MobileProve | src/lib.rs:85-105 | If the documents directory cannot be entered, the result is "Failed to set working directory: " plus the error and the state is unchanged. Otherwise the prover runs there. If it returns, its outcome is readable from the result, and the original directory is restored when `current_dir()` reported one that can be entered (the empty fallback path never can); else the process stays in the documents directory. If it panics, no string is returned and the process stays in the documents directory. Since `Report.ParseOnlyFormatted` shows that only the formatted string reads back to an outcome, this fixes the string exactly, with timings in canonical decimal. |
| MobileFfi.PanicMovesOriginal | src/lib.rs:87-102 | After a prover panic, the next wrapper call records the documents directory as its original one, so even a returning call then leaves the process there rather than where the first call started. |
| MobileFfi.ProverNotInvoked | src/lib.rs:90-92 | When entering the documents directory fails, the result is the same for every prover, so the prover's outcome never reaches it. |
| MobileFfi.RestoredOnBothOutcomes | src/lib.rs:94-104 | The working directory left behind is the same whether the prover returned timings or returned an error. |
| MobileFfi.MobileEcdsaProveWithKeys | src/lib.rs:85-105 | The prover runs if and only if the documents directory can be entered, and a failed directory change leaves the state as it was. A returned Prep/Prove/Verify outcome is read back from the result and the original directory is restored when it can be. A prover panic returns no string and leaves the process in the documents directory. Since `Report.ParseOnlyFormatted` shows that only the formatted string reads back to an outcome, this fixes the string exactly, with timings in canonical decimal. |
| MobileFfi.MobileJwtProveWithKeys | src/lib.rs:109-129 | The same guarantees for the JWT mobile proof: the directory change decides whether the prover runs, a returned outcome is read back and the original directory restored when it can be, and a panic leaves the process in the documents directory with no result. Since `Report.ParseOnlyFormatted` shows that only the formatted string reads back to an outcome, this fixes the string exactly, with timings in canonical decimal. |
| MobileFfi.MobileJwtProveSumCheck | src/lib.rs:133-153 | The same guarantees for the JWT sum-check, with Prep/Sum-check timings: restore after a returned outcome when possible, no result and no restore after a panic. Since `Report.ParseOnlyFormatted` shows that only the formatted string reads back to an outcome, this fixes the string exactly, with timings in canonical decimal. |
| MobileFfi.CircuitResult | src/lib.rs:156-171 | A full-circuit result reads back to its four timings. It names its title, and lists "Setup: ", "Prep: ", "Prove: " and "Verify: " at strictly increasing positions. Since `Report.ParseOnlyFormatted` shows that only the formatted string reads back to an outcome, this fixes the string exactly, with timings in canonical decimal. |
| MobileFfi.EcdsaProveAndVerify | src/lib.rs:156-162 | The ECDSA benchmark string reads back to its four timings and contains "ECDSA Circuit". Since `Report.ParseOnlyFormatted` shows that only the formatted string reads back to an outcome, this fixes the string exactly, with timings in canonical decimal. |
| MobileFfi.JwtProveAndVerify | src/lib.rs:165-171 | The JWT benchmark string reads back to its four timings and contains "JWT Circuit". Since `Report.ParseOnlyFormatted` shows that only the formatted string reads back to an outcome, this fixes the string exactly, with timings in canonical decimal. |
| MobileFfi.ProverResult | src/lib.rs:174-241 | Every prover result reads back to the outcome it came from. It names its title, contains "Prep:" when timed, and contains "failed" when failed. Since `Report.ParseOnlyFormatted` shows that only the formatted string reads back to an outcome, this fixes the string exactly, with timings in canonical decimal. |
| MobileFfi.EcdsaProveWithKeys | src/lib.rs:174-181 | The ECDSA proof result reads back to its outcome (two timings or the error) and names "ECDSA Proof". Since `Report.ParseOnlyFormatted` shows that only the formatted string reads back to an outcome, this fixes the string exactly, with timings in canonical decimal. |
| MobileFfi.JwtProveWithKeys | src/lib.rs:184-191 | The JWT proof result reads back to its outcome and names "JWT Proof". Since `Report.ParseOnlyFormatted` shows that only the formatted string reads back to an outcome, this fixes the string exactly, with timings in canonical decimal. |
| MobileFfi.JwtProveSumCheck | src/lib.rs:214-221 | The sum-check result reads back to its outcome and names "JWT Sum-check". Since `Report.ParseOnlyFormatted` shows that only the formatted string reads back to an outcome, this fixes the string exactly, with timings in canonical decimal. |
| MobileFfi.JwtProveSumcheckHyrax | src/lib.rs:224-231 | The JWT Sumcheck+Hyrax result reads back to its outcome and names its title. Since `Report.ParseOnlyFormatted` shows that only the formatted string reads back to an outcome, this fixes the string exactly, with timings in canonical decimal. |
| MobileFfi.EcdsaProveSumcheckHyrax | src/lib.rs:234-241 | The ECDSA Sumcheck+Hyrax result reads back to its outcome and names its title. Since `Report.ParseOnlyFormatted` shows that only the formatted string reads back to an outcome, this fixes the string exactly, with timings in canonical decimal. |
| MobileFfi.SumCheckTestsPassOnReturn | src/lib.rs:295-311 | The checks in the three sum-check unit tests hold for every result string those entry points return. A prover panic returns no string, and the tests do not catch it. |
| MobileFfi.SetupEcdsaKeys | src/lib.rs:193-201 | The result contains "successfully" if and only if setup completed, and "failed" if and only if it panicked, so the two messages are told apart. In both cases it passes the corrected unit-test check ("ECDSA key"). |
| MobileFfi.SetupJwtKeys | src/lib.rs:203-211 | The same for the JWT key setup: "successfully" exactly on completion, "failed" exactly on a panic, and the corrected check ("JWT key") passes. |
| MobileFfi.SetupTestRejectsFailure | src/lib.rs:277-293 | The unit tests' check as written looks for "ECDSA keys" / "JWT keys", which rejects both failure messages. |
| Report.Format | src/lib.rs:96-98 | A result starts with its title. A failure keeps the error's text verbatim at its end, and a timed result starts with the title, " - " and the first label followed by ": ". With `Report.ParseFormat` and `Report.ParseOnlyFormatted`, the formatted string is the only one that reads back to its outcome. |
| Report.ParseFormat | src/lib.rs:174-191 | Formatting loses nothing: parsing a formatted result with its template gives back the outcome. |
| Report.ParseOnlyFormatted | src/lib.rs:174-241 | The converse of `ParseFormat`: any string that reads back to an outcome is exactly that outcome's formatted string. So a string written with zero-padded or otherwise non-canonical timings is not read back at all. |
| Report.FormatInjective | src/lib.rs:174-241 | Distinct outcomes (other timings, other error text) give distinct result strings. |
| Report.Mentions | src/lib.rs:295-311 | Every result contains its title. A timed one contains its first label followed by ":", and a failed one contains "failed". |
| Report.PhasesInOrder | src/lib.rs:156-171 | In a timed result, the labels occur at strictly increasing positions in template order. |
| Decimal.ValueShow | src/lib.rs:177 | Reading back the decimal text of a timing gives the timing, so different timings print differently. |
| Decimal.ShowValue | src/lib.rs:177 | Canonical digit text (non-empty, no leading zero unless it is "0") is the text of the number it denotes, so `{}` of a timing is the only text the reader accepts for it. |
| Decimal.Show | src/lib.rs:177 | The decimal text of a timing is non-empty and all digits, and starts with "0" only for zero. |

## Findings

| source | as written | input that shows it | evidently intended | confidence | as-written member | corrected member |
|---|---|---|---|---|---|---|
| src/lib.rs:281, src/lib.rs:290 | The key-setup tests assert `result.contains("ECDSA keys")` (resp. `"JWT keys"`) together with `contains("successfully") \|\| contains("failed")`. The failure strings at src/lib.rs:199 and 209 are "ECDSA key setup failed" and "JWT key setup failed". | Key setup panics (for example when the circuit files are missing), so the entry point returns "ECDSA key setup failed", and the test's assertion fails. | The `\|\| contains("failed")` clause shows that the failure message was meant to pass. The check should look for "ECDSA key" / "JWT key". | high; not executed | MobileFfi.SetupTestRejectsFailure (with MobileFfi.SetupTestAsWritten) | MobileFfi.SetupTestCorrected, proved of both results in MobileFfi.SetupEcdsaKeys and MobileFfi.SetupJwtKeys |

## Left out

- Opening and buffering the witness file (`File::open`, `BufReader`): the reader works on the file's bytes, so the "Failed to open witness file" panic is not modelled.
- The arithmetic of `Scalar::from_repr`: which 32-byte strings are canonical is the parameter `canonical`, and a `Scalar` is kept as its representation.
- The `MobileJWTCircuit` impl (wallet-unit-poc/ecdsa-spartan2/src/mobile_jwt_circuit.rs:103-148): R1CS loading and constraint synthesis are calls into circom-scotia and bellpepper.
- wallet-unit-poc/ecdsa-spartan2/src/lib.rs: it only sequences Spartan2 setup/prove/verify calls and measures time. Each prover is a parameter here: an `Outcome` for the result-string functions, and a function from the working directory to a `Run` (a returned `Outcome` or a panic) for the `mobile_*` wrappers. Its timings are whatever it reports.
- wallet-unit-poc/ecdsa-spartan2/src/circuits/show_circuit.rs and wallet-unit-poc/ecdsa-spartan2/build.rs: circuit I/O, native witness generation and build-time code generation.
- `mopro_ffi::app!`, the `#[uniffi::export]` bindings and `mopro_uniffi_hello_world`: generated glue and a constant string.
- `ecdsa_prove_and_verify` and `jwt_prove_and_verify` when the benchmark panics, and every `*_prove_with_keys`, `*_sum_check` and `*_sumcheck_hyrax` entry point when its prover panics through an `expect` (for example wallet-unit-poc/ecdsa-spartan2/src/lib.rs:79, 105, 131, 137, 191, 196, 220, 225): none of them catches the panic, so no string is returned. Only the returning case of these result strings is modelled; the `mobile_*` wrappers model the panic as a `Run` (see MobileFfi.MobileProve).
- MobileFfi.SumCheckTestsPassOnReturn: covers the result strings the entry points return. The tests at src/lib.rs:296-310 do not catch a prover panic, which fails them.
- Timings are `u128` in the source and `nat` here. Their decimal text is the same for every value the source can produce.
- Wtns.Decode, Wtns.ShortInputRejected: `Vec::with_capacity(witness_len as usize)` is not modelled. The allocation happens before any element is read, so a header declaring a huge `witness_len` can abort the process on allocation failure (up to 2^32 elements of 32 bytes), and on a 32-bit target a capacity of 2^26 elements or more panics with "capacity overflow"; the model reports the short read instead.
- The real file system and working directory: existence is `present` (`fs::metadata` succeeding), and `set_current_dir` success is `enterable`. The directory stored after a change is the path given, not its canonical form from `current_dir()`.
- `PathBuf::join` is modelled for relative components on Unix-style paths only. Non-UTF-8 paths and their lossy `display()` are not modelled.
- Nothing in src/lib.rs reads the value stored in `MOBILE_RESOURCES_PATH`, so only the set-once behaviour is modelled.
- Concurrency: calls are sequential. Concurrent calls to the `mobile_*` wrappers would race on the process-wide working directory.
- The app-side asynchronous task queue, event channel and timing-text parser are not part of this model. The result strings modelled here separate entries with ", " and put " - " after the title.

=== FILE: decimal.dfy ===
/** Decimal text of unsigned integers, as Rust's `{}` formats a `u128`. */
module Decimal {

  predicate IsDigit(c: char) {
    '0' <= c <= '9'
  }

  predicate AllDigits(s: string) {
    forall i | 0 <= i < |s| :: IsDigit(s[i])
  }

  function DigitChar(d: nat): (c: char)
    requires d < 10
    ensures IsDigit(c)
  {
    (48 + d) as char
  }

  function DigitValue(c: char): (d: nat)
    requires IsDigit(c)
    ensures d < 10
  {
    (c as int) - 48
  }

  /** The shortest decimal text of `n`: at least one digit, no leading zero. */
  function Show(n: nat): (s: string)
    ensures |s| > 0 && AllDigits(s)
    ensures s[0] == '0' <==> n == 0
  {
    if n < 10 then [DigitChar(n)] else Show(n / 10) + [DigitChar(n % 10)]
  }

  /** The number a string of digits denotes. */
  function Value(s: string): nat
    requires AllDigits(s)
  {
    if |s| == 0 then 0 else 10 * Value(s[..|s| - 1]) + DigitValue(s[|s| - 1])
  }

  /** Reading back the text of `n` gives `n`; hence `Show` is injective. */
  lemma {:induction false} ValueShow(n: nat)
    ensures Value(Show(n)) == n
  {
    var s := Show(n);
    if n >= 10 {
      ValueShow(n / 10);
      assert s[..|s| - 1] == Show(n / 10);
    }
  }

  /** Digit text is canonical: non-empty, and no leading zero unless it is "0". */
  predicate Canonical(d: string) {
    |d| > 0 && AllDigits(d) && (|d| == 1 || d[0] != '0')
  }

  /** Digits that start with a non-zero digit denote a positive number. */
  lemma {:induction false} ValuePositive(d: string)
    requires |d| > 0 && AllDigits(d) && d[0] != '0'
    ensures Value(d) > 0
  {
    if |d| > 1 {
      ValuePositive(d[..|d| - 1]);
    }
  }

  /** Canonical digit text is the text of the number it denotes; with
      `ValueShow`, `Show` and `Value` are inverse on canonical text. */
  lemma {:induction false} ShowValue(d: string)
    requires Canonical(d)
    ensures Show(Value(d)) == d
  {
    var last := d[|d| - 1];
    assert DigitChar(DigitValue(last)) == last;
    if |d| > 1 {
      var p := d[..|d| - 1];
      ValuePositive(p);
      ShowValue(p);
      assert Value(d) / 10 == Value(p);
      assert Value(d) % 10 == DigitValue(last);
      assert d == p + [last];
    }
  }
}

=== FILE: little_endian.dfy ===
/** Bytes and the little-endian unsigned integers of the `.wtns` format
    (`u32::from_le_bytes`, `u64::from_le_bytes`). */
module LittleEndian {

  /** One byte of a file. */
  type byte = b: int | 0 <= b < 256

  /** 256 to the power `n`: one more than the largest value `n` bytes can hold. */
  function Pow256(n: nat): (r: nat)
    ensures r > 0
  {
    if n == 0 then 1 else 256 * Pow256(n - 1)
  }

  /** Exclusive upper bound of `u32`. */
  const U32Bound: nat := 0x1_0000_0000

  /** The unsigned value of `s`, least significant byte first. */
  function FromLe(s: seq<byte>): (r: nat)
    ensures r < Pow256(|s|)
  {
    if |s| == 0 then 0 else s[0] + 256 * FromLe(s[1..])
  }

  /** The `width` least significant bytes of `n`, least significant first. */
  function ToLe(n: nat, width: nat): (s: seq<byte>)
    ensures |s| == width
  {
    if width == 0 then []
    else
      var low: byte := n % 256;
      [low] + ToLe(n / 256, width - 1)
  }

  lemma Pow256Four()
    ensures Pow256(4) == U32Bound
    ensures Pow256(8) == U32Bound * U32Bound
  {
    assert Pow256(4) == 0x1_0000_0000 by {
      assert Pow256(2) == 0x1_0000;
    }
    assert Pow256(8) == 256 * 256 * 256 * 256 * Pow256(4);
  }

  /** Encoding a value that fits and reading it back gives the value. */
  lemma {:induction false} FromLeToLe(n: nat, width: nat)
    requires n < Pow256(width)
    ensures FromLe(ToLe(n, width)) == n
  {
    if width > 0 {
      assert n / 256 < Pow256(width - 1);
      FromLeToLe(n / 256, width - 1);
      var s := ToLe(n, width);
      assert s[1..] == ToLe(n / 256, width - 1);
    }
  }

  /** Reading bytes and re-encoding the value at the same width gives the bytes back. */
  lemma {:induction false} ToLeFromLe(s: seq<byte>)
    ensures ToLe(FromLe(s), |s|) == s
  {
    if |s| > 0 {
      var v := FromLe(s);
      assert v == s[0] + 256 * FromLe(s[1..]);
      assert v % 256 == s[0];
      assert v / 256 == FromLe(s[1..]);
      ToLeFromLe(s[1..]);
      assert ToLe(v, |s|) == [s[0]] + ToLe(FromLe(s[1..]), |s| - 1);
    }
  }
}

=== FILE: mobile_ffi.dfy ===
/** The functions the mobile app calls through UniFFI (`src/lib.rs`).

    The provers, key setup, the file system and the process's working
    directory are outside the model: a prover is a function from the working
    directory it runs in to a `Run` (the `Outcome` it returned, or a panic),
    file existence is a predicate
    `present`, and whether `set_current_dir` succeeds is a predicate
    `enterable` with `ioError` giving the error's display text. */
module MobileFfi {
  import opened Wrappers
  import opened Report

  // ---------------------------------------------------------------------------
  // initialize_mobile_environment: a set-once cell (`OnceLock<PathBuf>`)

  const InitOk := "Mobile environment initialized successfully"
  const InitAgain := "Mobile environment already initialized"

  /** The static `MOBILE_RESOURCES_PATH`; `None` until the first set. */
  datatype Env = Env(resourcesPath: Option<string>)

  /** Succeeds exactly on the first call; afterwards the cell is always set,
      and to the earlier path if there was one. */
  function InitializeMobileEnvironment(env: Env, documentsPath: string): (r: (Env, string))
    ensures r.1 == InitOk <==> env.resourcesPath.None?
    ensures r.1 == InitOk || r.1 == InitAgain
    ensures r.0.resourcesPath == Some(env.resourcesPath.GetOr(documentsPath))
  {
    assert InitOk[19] != InitAgain[19];
    match env.resourcesPath
    case None => (Env(Some(documentsPath)), InitOk)
    case Some(_) => (env, InitAgain)
  }

  /** A sequence of calls, in order: the final cell and every returned message. */
  function InitializeAll(env: Env, calls: seq<string>): (r: (Env, seq<string>))
    ensures |r.1| == |calls|
    decreases |calls|
  {
    if |calls| == 0 then (env, [])
    else
      var (next, msg) := InitializeMobileEnvironment(env, calls[0]);
      var (last, msgs) := InitializeAll(next, calls[1..]);
      (last, [msg] + msgs)
  }

  /** Once set, the path never changes and every call says so; from the unset
      state the first call wins and is the only one that succeeds. */
  lemma {:induction false} SetOnce(env: Env, calls: seq<string>)
    ensures env.resourcesPath.Some? ==>
              && InitializeAll(env, calls).0 == env
              && forall i | 0 <= i < |calls| :: InitializeAll(env, calls).1[i] == InitAgain
    ensures env.resourcesPath.None? && |calls| > 0 ==>
              && InitializeAll(env, calls).0 == Env(Some(calls[0]))
              && InitializeAll(env, calls).1[0] == InitOk
              && forall i | 1 <= i < |calls| :: InitializeAll(env, calls).1[i] == InitAgain
    decreases |calls|
  {
    if |calls| > 0 {
      var next := InitializeMobileEnvironment(env, calls[0]).0;
      SetOnce(next, calls[1..]);
    }
  }

  // ---------------------------------------------------------------------------
  // verify_mobile_resources

  const ResourcesOk := "All mobile resources verified successfully"
  const MissingPrefix := "Missing required file: "

  const CircomDir := "circom"
  const KeysDir := "wallet-unit-poc/ecdsa-spartan2/keys"

  /** R1CS, witness and input files, relative to `<documents>/circom`. */
  const CircuitFiles := [
    "build/ecdsa/ecdsa_js/ecdsa.r1cs",
    "build/ecdsa/ecdsa_js/ecdsa.wtns",
    "build/jwt/jwt_js/jwt.r1cs",
    "build/jwt/jwt_js/jwt.wtns",
    "inputs/ecdsa/default.json",
    "inputs/jwt/default.json"
  ]

  /** Proving and verifying keys, relative to the keys directory. */
  const KeyFiles := [
    "ecdsa_proving.key",
    "ecdsa_verifying.key",
    "jwt_proving.key",
    "jwt_verifying.key"
  ]

  /** `PathBuf::join` of a relative path on Unix: a separator is inserted
      unless the base is empty or already ends in one. */
  function Join(base: string, rel: string): (r: string)
    ensures |r| >= |base| + |rel| && r[..|base|] == base && r[|r| - |rel|..] == rel
    ensures |base| > 0 ==> r[|r| - |rel| - 1] == '/'
    ensures |r| == |base| + |rel| + (if |base| == 0 || base[|base| - 1] == '/' then 0 else 1)
  {
    if |base| == 0 || base[|base| - 1] == '/' then base + rel else base + "/" + rel
  }

  /** The ten paths checked, in the order they are checked. */
  function RequiredFiles(documentsPath: string): (files: seq<string>)
    ensures |files| == 10
    ensures forall i | 0 <= i < 10 ::
              |files[i]| >= |documentsPath| && files[i][..|documentsPath|] == documentsPath
    ensures forall i | 0 <= i < 6 ::
              |files[i]| >= |CircuitFiles[i]| && files[i][|files[i]| - |CircuitFiles[i]|..] == CircuitFiles[i]
    ensures forall j | 0 <= j < 4 ::
              |files[6 + j]| >= |KeyFiles[j]| && files[6 + j][|files[6 + j]| - |KeyFiles[j]|..] == KeyFiles[j]
  {
    var circom := Join(documentsPath, CircomDir);
    var keys := Join(documentsPath, KeysDir);
    seq(6, i requires 0 <= i < 6 => Join(circom, CircuitFiles[i]))
    + seq(4, i requires 0 <= i < 4 => Join(keys, KeyFiles[i]))
  }

  /** For an ordinary documents path the ten files are the six circuit files
      under `<docs>/circom/` followed by the four keys under the keys directory. */
  lemma RequiredFilesUnderDocuments(documentsPath: string)
    requires |documentsPath| > 0 && documentsPath[|documentsPath| - 1] != '/'
    ensures forall i | 0 <= i < 6 ::
              RequiredFiles(documentsPath)[i] == documentsPath + "/" + CircomDir + "/" + CircuitFiles[i]
    ensures forall j | 0 <= j < 4 ::
              RequiredFiles(documentsPath)[6 + j] == documentsPath + "/" + KeysDir + "/" + KeyFiles[j]
  {
  }

  /** A documents path that already ends in '/' gets no second separator. */
  lemma RequiredFilesUnderDocumentsSlash(documentsPath: string)
    requires |documentsPath| > 0 && documentsPath[|documentsPath| - 1] == '/'
    ensures forall i | 0 <= i < 6 ::
              RequiredFiles(documentsPath)[i] == documentsPath + CircomDir + "/" + CircuitFiles[i]
    ensures forall j | 0 <= j < 4 ::
              RequiredFiles(documentsPath)[6 + j] == documentsPath + KeysDir + "/" + KeyFiles[j]
  {
  }

  /** `k` is the first of `files` that does not exist. */
  predicate FirstMissing(files: seq<string>, present: string -> bool, k: nat) {
    && k < |files|
    && !present(files[k])
    && forall j | 0 <= j < k :: present(files[j])
  }

  /** Checks `files` in order and reports the first one that is missing. */
  method CheckFiles(files: seq<string>, present: string -> bool) returns (msg: string)
    ensures msg == ResourcesOk <==> forall i | 0 <= i < |files| :: present(files[i])
    ensures msg != ResourcesOk ==>
              exists k: nat | k < |files| :: FirstMissing(files, present, k) && msg == MissingPrefix + files[k]
  {
    var i := 0;
    while i < |files|
      invariant 0 <= i <= |files|
      invariant forall j | 0 <= j < i :: present(files[j])
    {
      if !present(files[i]) {
        msg := MissingPrefix + files[i];
        assert msg[0] != ResourcesOk[0];
        assert FirstMissing(files, present, i);
        return;
      }
      i := i + 1;
    }
    msg := ResourcesOk;
  }

  method VerifyMobileResources(documentsPath: string, present: string -> bool) returns (msg: string)
    ensures msg == ResourcesOk <==> forall i | 0 <= i < 10 :: present(RequiredFiles(documentsPath)[i])
    ensures msg != ResourcesOk ==>
              exists k: nat | k < 10 ::
                FirstMissing(RequiredFiles(documentsPath), present, k)
                && msg == MissingPrefix + RequiredFiles(documentsPath)[k]
  {
    msg := CheckFiles(RequiredFiles(documentsPath), present);
  }

  // ---------------------------------------------------------------------------
  // Result strings

  const EcdsaCircuit := Template("ECDSA Circuit", ["Setup", "Prep", "Prove", "Verify"])
  const JwtCircuit := Template("JWT Circuit", ["Setup", "Prep", "Prove", "Verify"])
  const EcdsaProof := Template("ECDSA Proof", ["Prep", "Prove"])
  const JwtProof := Template("JWT Proof", ["Prep", "Prove"])
  const JwtSumCheck := Template("JWT Sum-check", ["Prep", "Sum-check"])
  const JwtSumcheckHyrax := Template("JWT Prove" + SumcheckHyrax, ["Prep", "Prove"])
  const EcdsaSumcheckHyrax := Template("ECDSA Prove" + SumcheckHyrax, ["Prep", "Prove"])
  const SumcheckHyrax := " (Sumcheck+Hyrax)"
  const EcdsaMobileProof := Template("ECDSA Mobile Proof", ["Prep", "Prove", "Verify"])
  const JwtMobileProof := Template("JWT Mobile Proof", ["Prep", "Prove", "Verify"])

  /** What the unit tests check of a timed-or-failed result. */
  predicate NamesOutcome(s: string, title: string) {
    Contains(s, title) && (Contains(s, "Prep:") || Contains(s, "failed"))
  }

  /** A prover result string, recoverable and naming its title. */
  function ProverResult(t: Template, o: Outcome): (s: string)
    requires Fits(t, o) && |t.phases| > 0 && t.phases[0] == "Prep"
    ensures Parse(t, s) == Some(o)
    ensures NamesOutcome(s, t.title)
    ensures o.Timed? ==> Contains(s, "Prep:")
    ensures o.Failed? ==> Contains(s, "failed")
  {
    var s := Format(t, o);
    ParseFormat(t, o);
    Mentions(t, o);
    assert t.phases[0] + ":" == "Prep:";
    s
  }

  /** The labels Setup, Prep, Prove and Verify appear in that order. */
  predicate ListsInOrder(t: Template, ms: seq<nat>, s: string)
    requires |ms| == |t.phases| == 4
  {
    && OccursAt(s, "Setup: ", PhasePos(t, ms, 0))
    && OccursAt(s, "Prep: ", PhasePos(t, ms, 1))
    && OccursAt(s, "Prove: ", PhasePos(t, ms, 2))
    && OccursAt(s, "Verify: ", PhasePos(t, ms, 3))
    && PhasePos(t, ms, 0) < PhasePos(t, ms, 1) < PhasePos(t, ms, 2) < PhasePos(t, ms, 3)
  }

  lemma CircuitPhasesInOrder(t: Template, ms: seq<nat>)
    requires t.phases == ["Setup", "Prep", "Prove", "Verify"] && |ms| == 4
    ensures ListsInOrder(t, ms, Format(t, Timed(ms)))
  {
    assert t.phases[0] + ": " == "Setup: ";
    assert t.phases[1] + ": " == "Prep: ";
    assert t.phases[2] + ": " == "Prove: ";
    assert t.phases[3] + ": " == "Verify: ";
    PhasesInOrder(t, ms, 0, 1);
    PhasesInOrder(t, ms, 1, 2);
    PhasesInOrder(t, ms, 2, 3);
  }

  /** The full benchmark: four timings, in the order Setup, Prep, Prove, Verify. */
  function CircuitResult(t: Template, setup: nat, prep: nat, prove: nat, verify: nat): (s: string)
    requires t.phases == ["Setup", "Prep", "Prove", "Verify"]
    ensures Parse(t, s) == Some(Timed([setup, prep, prove, verify]))
    ensures Contains(s, t.title)
    ensures ListsInOrder(t, [setup, prep, prove, verify], s)
  {
    var ms := [setup, prep, prove, verify];
    var s := Format(t, Timed(ms));
    ParseFormat(t, Timed(ms));
    Mentions(t, Timed(ms));
    CircuitPhasesInOrder(t, ms);
    s
  }

  /** `ecdsa_prove_and_verify`, when the benchmark returns. */
  function EcdsaProveAndVerify(setup: nat, prep: nat, prove: nat, verify: nat): (s: string)
    ensures Parse(EcdsaCircuit, s) == Some(Timed([setup, prep, prove, verify]))
    ensures Contains(s, "ECDSA Circuit")
  {
    CircuitResult(EcdsaCircuit, setup, prep, prove, verify)
  }

  /** `jwt_prove_and_verify`, when the benchmark returns. */
  function JwtProveAndVerify(setup: nat, prep: nat, prove: nat, verify: nat): (s: string)
    ensures Parse(JwtCircuit, s) == Some(Timed([setup, prep, prove, verify]))
    ensures Contains(s, "JWT Circuit")
  {
    CircuitResult(JwtCircuit, setup, prep, prove, verify)
  }

  function EcdsaProveWithKeys(o: Outcome): (s: string)
    requires Fits(EcdsaProof, o)
    ensures Parse(EcdsaProof, s) == Some(o) && NamesOutcome(s, "ECDSA Proof")
  {
    ProverResult(EcdsaProof, o)
  }

  function JwtProveWithKeys(o: Outcome): (s: string)
    requires Fits(JwtProof, o)
    ensures Parse(JwtProof, s) == Some(o) && NamesOutcome(s, "JWT Proof")
  {
    ProverResult(JwtProof, o)
  }

  function JwtProveSumCheck(o: Outcome): (s: string)
    requires Fits(JwtSumCheck, o)
    ensures Parse(JwtSumCheck, s) == Some(o) && NamesOutcome(s, "JWT Sum-check")
  {
    ProverResult(JwtSumCheck, o)
  }

  function JwtProveSumcheckHyrax(o: Outcome): (s: string)
    requires Fits(JwtSumcheckHyrax, o)
    ensures Parse(JwtSumcheckHyrax, s) == Some(o) && NamesOutcome(s, JwtSumcheckHyrax.title)
  {
    ProverResult(JwtSumcheckHyrax, o)
  }

  function EcdsaProveSumcheckHyrax(o: Outcome): (s: string)
    requires Fits(EcdsaSumcheckHyrax, o)
    ensures Parse(EcdsaSumcheckHyrax, s) == Some(o) && NamesOutcome(s, EcdsaSumcheckHyrax.title)
  {
    ProverResult(EcdsaSumcheckHyrax, o)
  }

  /** A string that contains `p + q` contains `p`. */
  lemma ContainsPrefix(s: string, p: string, q: string)
    requires Contains(s, p + q)
    ensures Contains(s, p)
  {
    var i: nat :| i <= |s| && OccursAt(s, p + q, i);
    assert s[i..i + |p|] == (p + q)[..|p|];
    assert OccursAt(s, p, i);
  }

  /** The unit tests of the three sum-check entry points accept every result
      they can return: each names its prover and says "Prep:" or "failed". */
  lemma SumCheckTestsPassOnReturn(o1: Outcome, o2: Outcome, o3: Outcome)
    requires Fits(JwtSumCheck, o1) && Fits(JwtSumcheckHyrax, o2) && Fits(EcdsaSumcheckHyrax, o3)
    ensures var s := JwtProveSumCheck(o1);
            Contains(s, "JWT Sum-check") && (Contains(s, "Prep:") || Contains(s, "failed"))
    ensures var s := JwtProveSumcheckHyrax(o2);
            Contains(s, "JWT Prove") && (Contains(s, "Prep:") || Contains(s, "failed"))
    ensures var s := EcdsaProveSumcheckHyrax(o3);
            Contains(s, "ECDSA Prove") && (Contains(s, "Prep:") || Contains(s, "failed"))
  {
    ContainsPrefix(JwtProveSumcheckHyrax(o2), "JWT Prove", SumcheckHyrax);
    ContainsPrefix(EcdsaProveSumcheckHyrax(o3), "ECDSA Prove", SumcheckHyrax);
  }

  // ---------------------------------------------------------------------------
  // setup_*_keys: a panic in key setup is caught and reported

  /** `setup_ecdsa_keys`; `setupPanicked` says whether key generation panicked. */
  function SetupEcdsaKeys(setupPanicked: bool): (s: string)
    ensures Contains(s, "successfully") <==> !setupPanicked
    ensures Contains(s, "failed") <==> setupPanicked
    ensures SetupTestCorrected("ECDSA", s)
  {
    if setupPanicked then
      var s := "ECDSA" + " key" + " setup " + "failed";
      Join3("ECDSA" + " key", " setup ", "failed");
      LacksCharLacksSub(s, "successfully", 2);
      s
    else
      var s := "ECDSA" + " key" + "s generated " + "successfully";
      Join3("ECDSA" + " key", "s generated ", "successfully");
      LacksCharLacksSub(s, "failed", 2);
      s
  }

  /** `setup_jwt_keys`; `setupPanicked` says whether key generation panicked. */
  function SetupJwtKeys(setupPanicked: bool): (s: string)
    ensures Contains(s, "successfully") <==> !setupPanicked
    ensures Contains(s, "failed") <==> setupPanicked
    ensures SetupTestCorrected("JWT", s)
  {
    if setupPanicked then
      var s := "JWT" + " key" + " setup " + "failed";
      Join3("JWT" + " key", " setup ", "failed");
      LacksCharLacksSub(s, "successfully", 2);
      s
    else
      var s := "JWT" + " key" + "s generated " + "successfully";
      Join3("JWT" + " key", "s generated ", "successfully");
      LacksCharLacksSub(s, "failed", 2);
      s
  }

  /** The unit tests' check of a key-setup result, as written: it looks for
      "<curve> keys", which the failure message does not contain. */
  predicate SetupTestAsWritten(curve: string, s: string) {
    Contains(s, curve + " keys") && (Contains(s, "successfully") || Contains(s, "failed"))
  }

  /** The same check looking for "<curve> key", which both messages contain. */
  predicate SetupTestCorrected(curve: string, s: string) {
    Contains(s, curve + " key") && (Contains(s, "successfully") || Contains(s, "failed"))
  }

  /** The first and last parts of a three-part string occur in it. */
  lemma Join3(a: string, b: string, c: string)
    ensures OccursAt(a + b + c, a, 0)
    ensures OccursAt(a + b + c, c, |a| + |b|)
  {
    assert (a + b + c)[..|a|] == a;
    assert (a + b + c)[|a| + |b|..] == c;
  }

  lemma CharOfOccurrence(s: string, sub: string, i: nat, k: nat)
    requires OccursAt(s, sub, i) && k < |sub|
    ensures s[i + k] == sub[k]
  {
    assert s[i..i + |sub|][k] == sub[k];
  }

  /** A string without the character `sub[k]` has no occurrence of `sub`. */
  lemma LacksCharLacksSub(s: string, sub: string, k: nat)
    requires k < |sub| && forall j | 0 <= j < |s| :: s[j] != sub[k]
    ensures !Contains(s, sub)
  {
    forall i: nat | i <= |s|
      ensures !OccursAt(s, sub, i)
    {
      if OccursAt(s, sub, i) {
        CharOfOccurrence(s, sub, i, k);
        assert false;
      }
    }
  }

  /** The failure message of the ECDSA setup does not contain "ECDSA keys". */
  lemma EcdsaFailureLacksKeys()
    ensures !Contains("ECDSA key setup failed", "ECDSA keys")
  {
    var e := "ECDSA key setup failed";
    forall i: nat | i <= |e|
      ensures !OccursAt(e, "ECDSA keys", i)
    {
      if OccursAt(e, "ECDSA keys", i) {
        CharOfOccurrence(e, "ECDSA keys", i, 0);
        CharOfOccurrence(e, "ECDSA keys", i, 9);
        assert false;
      }
    }
  }

  /** The failure message of the JWT setup does not contain "JWT keys". */
  lemma JwtFailureLacksKeys()
    ensures !Contains("JWT key setup failed", "JWT keys")
  {
    var e := "JWT key setup failed";
    forall i: nat | i <= |e|
      ensures !OccursAt(e, "JWT keys", i)
    {
      if OccursAt(e, "JWT keys", i) {
        CharOfOccurrence(e, "JWT keys", i, 0);
        CharOfOccurrence(e, "JWT keys", i, 7);
        assert false;
      }
    }
  }

  /** The tests as written reject the failure result they were meant to accept. */
  lemma SetupTestRejectsFailure()
    ensures !SetupTestAsWritten("ECDSA", SetupEcdsaKeys(true))
    ensures !SetupTestAsWritten("JWT", SetupJwtKeys(true))
  {
    assert SetupEcdsaKeys(true) == "ECDSA key setup failed";
    assert "ECDSA" + " keys" == "ECDSA keys";
    EcdsaFailureLacksKeys();
    assert SetupJwtKeys(true) == "JWT key setup failed";
    assert "JWT" + " keys" == "JWT keys";
    JwtFailureLacksKeys();
  }

  // ---------------------------------------------------------------------------
  // mobile_*: run a prover inside the documents directory

  /** The process's working directory; `None` when `current_dir()` fails. */
  datatype Process = Process(cwd: Option<string>)

  /** What a prover call did: returned its timings or error, or panicked
      through an `expect` (nothing in the wrappers catches the panic). */
  datatype Run = Returned(outcome: Outcome) | Panicked

  /** A wrapper's result string (`None` when the prover's panic unwound out of
      the wrapper, so no string was returned), the working directory it
      leaves, and whether it called the prover. */
  datatype Call = Call(result: Option<string>, after: Process, proverRan: bool)

  const SetDirFailed := "Failed to set working directory: "

  /** The directory the wrapper can go back to: the one `current_dir()`
      reported, if it reported one and it can be entered.  When
      `current_dir()` fails the source falls back to the empty path, and
      `set_current_dir("")` always fails, so there is nothing to go back to. */
  predicate Restorable(before: Process, enterable: string -> bool) {
    before.cwd.Some? && enterable(before.cwd.value)
  }

  /** The shared body of the `mobile_*` wrappers: remember the working
      directory, enter `documentsPath` or give up, run the prover there,
      format what it returned, then try to go back.  A panic of the prover
      skips both the formatting and the way back. */
  function MobileProve(t: Template, before: Process, documentsPath: string,
                       enterable: string -> bool, ioError: string -> string,
                       prover: string -> Run): (c: Call)
    requires forall dir :: prover(dir).Returned? ==> Fits(t, prover(dir).outcome)
    ensures !enterable(documentsPath) ==>
              c == Call(Some(SetDirFailed + ioError(documentsPath)), before, false)
    ensures enterable(documentsPath) ==> c.proverRan
    ensures enterable(documentsPath) && prover(documentsPath).Returned? ==>
              c.result.Some? && Parse(t, c.result.value) == Some(prover(documentsPath).outcome)
    ensures enterable(documentsPath) && prover(documentsPath).Returned? && Restorable(before, enterable) ==>
              c.after == before
    ensures enterable(documentsPath) && prover(documentsPath).Returned? && !Restorable(before, enterable) ==>
              c.after == Process(Some(documentsPath))
    ensures enterable(documentsPath) && prover(documentsPath).Panicked? ==>
              c.result.None? && c.after == Process(Some(documentsPath))
  {
    if !enterable(documentsPath) then
      Call(Some(SetDirFailed + ioError(documentsPath)), before, false)
    else
      match prover(documentsPath)
      case Panicked => Call(None, Process(Some(documentsPath)), true)
      case Returned(outcome) =>
        var result := Format(t, outcome);
        ParseFormat(t, outcome);
        var after := if Restorable(before, enterable) then before else Process(Some(documentsPath));
        Call(Some(result), after, true)
  }

  /** When the documents directory cannot be entered, the prover does not
      matter: nothing it could return reaches the result. */
  lemma ProverNotInvoked(t: Template, before: Process, documentsPath: string,
                         enterable: string -> bool, ioError: string -> string,
                         p1: string -> Run, p2: string -> Run)
    requires forall dir :: p1(dir).Returned? ==> Fits(t, p1(dir).outcome)
    requires forall dir :: p2(dir).Returned? ==> Fits(t, p2(dir).outcome)
    requires !enterable(documentsPath)
    ensures MobileProve(t, before, documentsPath, enterable, ioError, p1)
            == MobileProve(t, before, documentsPath, enterable, ioError, p2)
  {
  }

  /** The working directory is restored whatever the prover returned. */
  lemma RestoredOnBothOutcomes(t: Template, before: Process, documentsPath: string,
                               enterable: string -> bool, ioError: string -> string,
                               p1: string -> Run, p2: string -> Run)
    requires forall dir :: p1(dir).Returned? ==> Fits(t, p1(dir).outcome)
    requires forall dir :: p2(dir).Returned? ==> Fits(t, p2(dir).outcome)
    requires p1(documentsPath).Returned? && p1(documentsPath).outcome.Timed?
    requires p2(documentsPath).Returned? && p2(documentsPath).outcome.Failed?
    ensures MobileProve(t, before, documentsPath, enterable, ioError, p1).after
            == MobileProve(t, before, documentsPath, enterable, ioError, p2).after
  {
  }

  /** A panic leaves the process in the documents directory, and the next
      wrapper call then takes that directory for the original one: after it
      returns, the process is in the first call's documents directory, not in
      the directory the first call started from. */
  lemma PanicMovesOriginal(t: Template, before: Process, d1: string, d2: string,
                           enterable: string -> bool, ioError: string -> string,
                           p1: string -> Run, p2: string -> Run)
    requires forall dir :: p1(dir).Returned? ==> Fits(t, p1(dir).outcome)
    requires forall dir :: p2(dir).Returned? ==> Fits(t, p2(dir).outcome)
    requires enterable(d1) && enterable(d2)
    requires p1(d1).Panicked? && p2(d2).Returned?
    ensures var first := MobileProve(t, before, d1, enterable, ioError, p1);
            && first.after == Process(Some(d1))
            && MobileProve(t, first.after, d2, enterable, ioError, p2).after == Process(Some(d1))
  {
  }

  function MobileEcdsaProveWithKeys(before: Process, documentsPath: string, enterable: string -> bool,
                                    ioError: string -> string, prover: string -> Run): (c: Call)
    requires forall dir :: prover(dir).Returned? ==> Fits(EcdsaMobileProof, prover(dir).outcome)
    ensures enterable(documentsPath) <==> c.proverRan
    ensures !c.proverRan ==> c.after == before && c.result == Some(SetDirFailed + ioError(documentsPath))
    ensures c.proverRan && prover(documentsPath).Returned? ==>
              && c.result.Some?
              && Parse(EcdsaMobileProof, c.result.value) == Some(prover(documentsPath).outcome)
              && c.after == (if Restorable(before, enterable) then before else Process(Some(documentsPath)))
    ensures c.proverRan && prover(documentsPath).Panicked? ==>
              c.result.None? && c.after == Process(Some(documentsPath))
  {
    MobileProve(EcdsaMobileProof, before, documentsPath, enterable, ioError, prover)
  }

  function MobileJwtProveWithKeys(before: Process, documentsPath: string, enterable: string -> bool,
                                  ioError: string -> string, prover: string -> Run): (c: Call)
    requires forall dir :: prover(dir).Returned? ==> Fits(JwtMobileProof, prover(dir).outcome)
    ensures enterable(documentsPath) <==> c.proverRan
    ensures !c.proverRan ==> c.after == before && c.result == Some(SetDirFailed + ioError(documentsPath))
    ensures c.proverRan && prover(documentsPath).Returned? ==>
              && c.result.Some?
              && Parse(JwtMobileProof, c.result.value) == Some(prover(documentsPath).outcome)
              && c.after == (if Restorable(before, enterable) then before else Process(Some(documentsPath)))
    ensures c.proverRan && prover(documentsPath).Panicked? ==>
              c.result.None? && c.after == Process(Some(documentsPath))
  {
    MobileProve(JwtMobileProof, before, documentsPath, enterable, ioError, prover)
  }

  function MobileJwtProveSumCheck(before: Process, documentsPath: string, enterable: string -> bool,
                                  ioError: string -> string, prover: string -> Run): (c: Call)
    requires forall dir :: prover(dir).Returned? ==> Fits(JwtSumCheck, prover(dir).outcome)
    ensures enterable(documentsPath) <==> c.proverRan
    ensures !c.proverRan ==> c.after == before && c.result == Some(SetDirFailed + ioError(documentsPath))
    ensures c.proverRan && prover(documentsPath).Returned? ==>
              && c.result.Some?
              && Parse(JwtSumCheck, c.result.value) == Some(prover(documentsPath).outcome)
              && c.after == (if Restorable(before, enterable) then before else Process(Some(documentsPath)))
    ensures c.proverRan && prover(documentsPath).Panicked? ==>
              c.result.None? && c.after == Process(Some(documentsPath))
  {
    MobileProve(JwtSumCheck, before, documentsPath, enterable, ioError, prover)
  }
}

=== FILE: report.dfy ===
/** The result strings the FFI entry points hand back to the app:
    `"<title> - <Phase>: <n>ms, <Phase>: <n>ms, ..."` when the prover returned
    its timings and `"<title> failed: <error>"` when it returned an error.
    `Parse` reads such a string back; `ParseFormat` proves that no outcome is
    lost in formatting. */
module Report {
  import opened Wrappers
  import opened Decimal

  /** The fixed text of one kind of result: its title and timing labels. */
  datatype Template = Template(title: string, phases: seq<string>)

  /** What a prover call returned: its timings in milliseconds, or the error's
      display text. */
  datatype Outcome = Timed(millis: seq<nat>) | Failed(message: string)

  /** The timings have one entry per label (the source's tuple types). */
  predicate Fits(t: Template, o: Outcome) {
    o.Timed? ==> |o.millis| == |t.phases|
  }

  function Entry(phase: string, ms: nat): string {
    phase + ": " + Show(ms) + "ms"
  }

  /** The entries joined by ", "; `first` is false after the first entry. */
  function Timings(phases: seq<string>, ms: seq<nat>, first: bool): string
    requires |phases| == |ms|
  {
    if |phases| == 0 then ""
    else Separator(first) + Entry(phases[0], ms[0]) + Timings(phases[1..], ms[1..], false)
  }

  /** Both shapes start with the title; an error's text is kept verbatim at
      the end, and timings start with the first label. */
  function Format(t: Template, o: Outcome): (s: string)
    requires Fits(t, o)
    ensures IsPrefix(t.title, s)
    ensures o.Failed? ==> |s| >= |o.message| && s[|s| - |o.message|..] == o.message
    ensures o.Timed? && |t.phases| > 0 ==> IsPrefix(t.title + " - " + t.phases[0] + ": ", s)
    ensures o.Timed? && |t.phases| == 0 ==> s == t.title + " - "
  {
    match o
    case Timed(ms) => t.title + " - " + Timings(t.phases, ms, true)
    case Failed(e) => t.title + " failed: " + e
  }

  // ---------------------------------------------------------------------------
  // Reading a result string back

  predicate IsPrefix(p: string, s: string) {
    |p| <= |s| && s[..|p|] == p
  }

  /** Length of the run of digits `s` starts with. */
  function DigitRun(s: string): (k: nat)
    ensures k <= |s| && AllDigits(s[..k])
    ensures k < |s| ==> !IsDigit(s[k])
  {
    if |s| == 0 || !IsDigit(s[0]) then 0
    else
      var k := 1 + DigitRun(s[1..]);
      assert s[..k] == [s[0]] + s[1..][..k - 1];
      k
  }

  /** Reads one entry `lead + <digits> + "ms"` off the front of `s`: its
      value and what follows it.  The digits must be canonical, as `{}`
      writes them: no leading zero unless the value is zero. */
  function ReadEntry(lead: string, s: string): Option<(nat, string)> {
    if !IsPrefix(lead, s) then None
    else
      var rest := s[|lead|..];
      var k := DigitRun(rest);
      if k == 0 || (k > 1 && rest[0] == '0') || !IsPrefix("ms", rest[k..]) then None
      else Some((Value(rest[..k]), rest[k + 2..]))
  }

  function ParseTimings(phases: seq<string>, s: string, first: bool): Option<seq<nat>> {
    if |phases| == 0 then (if s == "" then Some([]) else None)
    else
      var entry :- ReadEntry(Separator(first) + phases[0] + ": ", s);
      var tail :- ParseTimings(phases[1..], entry.1, false);
      Some([entry.0] + tail)
  }

  function Parse(t: Template, s: string): Option<Outcome> {
    var failed := t.title + " failed: ";
    var timed := t.title + " - ";
    if IsPrefix(failed, s) then Some(Failed(s[|failed|..]))
    else if IsPrefix(timed, s) then
      var ms :- ParseTimings(t.phases, s[|timed|..], true);
      Some(Timed(ms))
    else None
  }

  lemma {:induction false} DigitRunOf(d: string, x: string)
    requires AllDigits(d)
    requires |x| > 0 && !IsDigit(x[0])
    ensures DigitRun(d + x) == |d|
  {
    if |d| > 0 {
      assert (d + x)[1..] == d[1..] + x;
      DigitRunOf(d[1..], x);
    }
  }

  function Separator(first: bool): string {
    if first then "" else ", "
  }

  /** An entry written with `lead` is read back as its value, leaving what
      follows it. */
  lemma ReadEntryOf(lead: string, m: nat, tail: string)
    ensures ReadEntry(lead, lead + (Show(m) + "ms" + tail)) == Some((m, tail))
  {
    var digits := Show(m);
    var rest := digits + "ms" + tail;
    var s := lead + rest;
    assert s[..|lead|] == lead;
    assert s[|lead|..] == rest;
    assert rest == digits + ("ms" + tail);
    DigitRunOf(digits, "ms" + tail);
    assert rest[..|digits|] == digits;
    assert |digits| > 1 ==> m != 0;
    assert rest[|digits|..] == "ms" + tail;
    ValueShow(m);
  }

  lemma {:induction false} ParseTimingsOf(phases: seq<string>, ms: seq<nat>, first: bool)
    requires |phases| == |ms|
    ensures ParseTimings(phases, Timings(phases, ms, first), first) == Some(ms)
  {
    if |phases| > 0 {
      var tail := Timings(phases[1..], ms[1..], false);
      var lead := Separator(first) + phases[0] + ": ";
      var s := Timings(phases, ms, first);
      assert s == lead + (Show(ms[0]) + "ms" + tail) by {
        assert s == Separator(first) + Entry(phases[0], ms[0]) + tail;
      }
      ParseTimingsOf(phases[1..], ms[1..], false);
      ReadEntryOf(lead, ms[0], tail);
      assert ParseTimings(phases, s, first) == Some([ms[0]] + ms[1..]);
      assert ms == [ms[0]] + ms[1..];
    }
  }

  /** Formatting loses nothing: every outcome is read back from its string. */
  lemma ParseFormat(t: Template, o: Outcome)
    requires Fits(t, o)
    ensures Parse(t, Format(t, o)) == Some(o)
  {
    var s := Format(t, o);
    var failed := t.title + " failed: ";
    var timed := t.title + " - ";
    match o
    case Failed(e) =>
      assert s[..|failed|] == failed;
    case Timed(ms) =>
      assert s[|t.title| + 1] == '-';
      assert failed[|t.title| + 1] == 'f';
      assert !IsPrefix(failed, s);
      assert s[..|timed|] == timed;
      assert s[|timed|..] == Timings(t.phases, ms, true);
      ParseTimingsOf(t.phases, ms, true);
  }

  /** An entry read back was written with `lead`, the canonical digits of its
      value and "ms", followed by what is left. */
  lemma ReadEntrySound(lead: string, s: string)
    requires ReadEntry(lead, s).Some?
    ensures var (m, tail) := ReadEntry(lead, s).value;
            s == lead + (Show(m) + "ms" + tail)
  {
    var rest := s[|lead|..];
    var k := DigitRun(rest);
    var digits := rest[..k];
    ShowValue(digits);
    assert s == s[..|lead|] + rest;
    assert rest == digits + rest[k..][..2] + rest[k + 2..];
  }

  /** An entry read after its lead is the separator, the entry and the tail. */
  lemma EntryAfterLead(sep: string, phase: string, m: nat, tail: string)
    ensures (sep + phase + ": ") + (Show(m) + "ms" + tail) == sep + Entry(phase, m) + tail
  {
    var d := Show(m);
    assert (sep + phase + ": ") + (d + "ms" + tail) == sep + (phase + ": " + d + "ms") + tail;
  }

  lemma {:induction false} ParseTimingsSound(phases: seq<string>, s: string, first: bool)
    requires ParseTimings(phases, s, first).Some?
    ensures var ms := ParseTimings(phases, s, first).value;
            |ms| == |phases| && s == Timings(phases, ms, first)
  {
    if |phases| > 0 {
      var lead := Separator(first) + phases[0] + ": ";
      var (m, tail) := ReadEntry(lead, s).value;
      var rest := ParseTimings(phases[1..], tail, false).value;
      var ms := ParseTimings(phases, s, first).value;
      assert ms == [m] + rest;
      assert ms[0] == m && ms[1..] == rest;
      ReadEntrySound(lead, s);
      ParseTimingsSound(phases[1..], tail, false);
      EntryAfterLead(Separator(first), phases[0], m, tail);
    }
  }

  /** The converse of `ParseFormat`: the only strings read back to an outcome
      are its formatted string.  Together they say `Parse(t, s) == Some(o)`
      exactly when `s == Format(t, o)`. */
  lemma ParseOnlyFormatted(t: Template, s: string)
    requires Parse(t, s).Some?
    ensures Fits(t, Parse(t, s).value) && s == Format(t, Parse(t, s).value)
  {
    var failed := t.title + " failed: ";
    var timed := t.title + " - ";
    if IsPrefix(failed, s) {
      assert s == failed + s[|failed|..];
    } else {
      ParseTimingsSound(t.phases, s[|timed|..], true);
      assert s == timed + s[|timed|..];
    }
  }

  /** Distinct outcomes give distinct strings. */
  lemma FormatInjective(t: Template, o1: Outcome, o2: Outcome)
    requires Fits(t, o1) && Fits(t, o2)
    requires Format(t, o1) == Format(t, o2)
    ensures o1 == o2
  {
    ParseFormat(t, o1);
    ParseFormat(t, o2);
  }

  // ---------------------------------------------------------------------------
  // What a result string visibly contains

  predicate OccursAt(s: string, sub: string, i: nat) {
    i + |sub| <= |s| && s[i..i + |sub|] == sub
  }

  predicate Contains(s: string, sub: string) {
    exists i: nat | i <= |s| :: OccursAt(s, sub, i)
  }

  /** Every result names its title; a timed one names its first label, a
      failed one says "failed". */
  lemma Mentions(t: Template, o: Outcome)
    requires Fits(t, o) && |t.phases| > 0
    ensures Contains(Format(t, o), t.title)
    ensures o.Timed? ==> Contains(Format(t, o), t.phases[0] + ":")
    ensures o.Failed? ==> Contains(Format(t, o), "failed")
  {
    var s := Format(t, o);
    assert OccursAt(s, t.title, 0);
    match o
    case Timed(ms) =>
      assert OccursAt(s, t.phases[0] + ":", |t.title| + 3);
    case Failed(_) =>
      assert OccursAt(s, "failed", |t.title| + 1);
  }

  /** Offset of the `i`-th label inside `Timings(phases, ms, first)`. */
  function PhaseOffset(phases: seq<string>, ms: seq<nat>, first: bool, i: nat): nat
    requires |phases| == |ms| && i < |phases|
  {
    (if first then 0 else 2)
    + (if i == 0 then 0 else |Entry(phases[0], ms[0])| + PhaseOffset(phases[1..], ms[1..], false, i - 1))
  }

  lemma OccursAtShift(pre: string, s: string, sub: string, i: nat)
    requires OccursAt(s, sub, i)
    ensures OccursAt(pre + s, sub, |pre| + i)
  {
    assert (pre + s)[|pre| + i..|pre| + i + |sub|] == s[i..i + |sub|];
  }

  lemma {:induction false} PhaseAtOffset(phases: seq<string>, ms: seq<nat>, first: bool, i: nat)
    requires |phases| == |ms| && i < |phases|
    ensures OccursAt(Timings(phases, ms, first), phases[i] + ": ", PhaseOffset(phases, ms, first, i))
  {
    var sep := Separator(first);
    var e := Entry(phases[0], ms[0]);
    var tail := Timings(phases[1..], ms[1..], false);
    assert Timings(phases, ms, first) == sep + e + tail;
    if i > 0 {
      PhaseAtOffset(phases[1..], ms[1..], false, i - 1);
      OccursAtShift(sep + e, tail, phases[i] + ": ", PhaseOffset(phases[1..], ms[1..], false, i - 1));
    } else {
      assert (sep + e + tail)[|sep|..|sep| + |phases[0] + ": "|] == phases[0] + ": ";
    }
  }

  lemma {:induction false} PhaseOffsetIncreasing(phases: seq<string>, ms: seq<nat>, first: bool, i: nat, j: nat)
    requires |phases| == |ms| && i < j < |phases|
    ensures PhaseOffset(phases, ms, first, i) < PhaseOffset(phases, ms, first, j)
  {
    if i > 0 {
      PhaseOffsetIncreasing(phases[1..], ms[1..], false, i - 1, j - 1);
    }
  }

  /** Where the `i`-th label of a timed result starts. */
  function PhasePos(t: Template, ms: seq<nat>, i: nat): nat
    requires |ms| == |t.phases| && i < |t.phases|
  {
    |t.title| + 3 + PhaseOffset(t.phases, ms, true, i)
  }

  /** A timed result lists its labels in the template's order. */
  lemma PhasesInOrder(t: Template, ms: seq<nat>, i: nat, j: nat)
    requires |ms| == |t.phases| && i < j < |t.phases|
    ensures OccursAt(Format(t, Timed(ms)), t.phases[i] + ": ", PhasePos(t, ms, i))
    ensures OccursAt(Format(t, Timed(ms)), t.phases[j] + ": ", PhasePos(t, ms, j))
    ensures PhasePos(t, ms, i) < PhasePos(t, ms, j)
  {
    var body := Timings(t.phases, ms, true);
    var s := Format(t, Timed(ms));
    assert s == (t.title + " - ") + body;
    PhaseAtOffset(t.phases, ms, true, i);
    PhaseAtOffset(t.phases, ms, true, j);
    PhaseOffsetIncreasing(t.phases, ms, true, i, j);
    var p := PhaseOffset(t.phases, ms, true, i);
    var q := PhaseOffset(t.phases, ms, true, j);
    assert s[|t.title| + 3 + p..|t.title| + 3 + p + |t.phases[i] + ": "|] == body[p..p + |t.phases[i] + ": "|];
    assert s[|t.title| + 3 + q..|t.title| + 3 + q + |t.phases[j] + ": "|] == body[q..q + |t.phases[j] + ": "|];
  }
}

=== FILE: wrappers.dfy ===
/** The two outcome types of the model.  A Rust `panic!` or `expect` on a
    path the model follows becomes a `Failure` carrying the reason, and
    `unwrap_or` on a missing value becomes `GetOr`.  Both types support
    Dafny's `:-` operator, which stops at the first `None` or `Failure`. */
module Wrappers {

  /** A value that may be missing (Rust's `Option`). */
  datatype Option<+T> = None | Some(value: T) {

    /** `:-` stops here when the value is missing. */
    predicate IsFailure() {
      None?
    }

    /** A missing value stays missing, whatever type is expected next. */
    function PropagateFailure<U>(): Option<U>
      requires None?
    {
      None
    }

    /** What `:-` continues with when the value is present. */
    function Extract(): T
      requires Some?
    {
      value
    }

    /** The value, or `default` when absent (Rust's `unwrap_or`). */
    function GetOr(default: T): T {
      match this
      case Some(v) => v
      case None => default
    }
  }

  /** A computed value, or the error that ended the computation. */
  datatype Result<+R, +E> = Success(value: R) | Failure(error: E) {

    /** `:-` stops here on an error. */
    predicate IsFailure() {
      Failure?
    }

    /** The error, carried on unchanged to a result of another value type. */
    function PropagateFailure<U>(): Result<U, E>
      requires Failure?
    {
      Failure(error)
    }

    /** What `:-` continues with on success. */
    function Extract(): R
      requires Success?
    {
      value
    }
  }
}

=== FILE: wtns.dfy ===
/** The reader of circom/snarkjs `.wtns` witness files used by the mobile JWT
    circuit (`load_witness_from_file`).

    The file is read front to back with `read_exact`; each short read and each
    failed check is a panic in the source and a `Failure` here.  Layout:

      offset  size  field
           0     4  magic "wtns"
           4     4  version (u32, at most 2)
           8     4  number of sections (u32, exactly 2)
          12     4  section 1 type (u32, exactly 1)
          16     8  section 1 size (u64, exactly 40)
          24     4  field size (u32, exactly 32)
          28    32  prime (read, never checked)
          60     4  witness length n (u32)
          64     4  section 2 type (u32, exactly 2)
          68     8  section 2 size (u64, must equal n * field size in u32)
          76  32*n  the n witness elements, 32 bytes each
*/
module Wtns {
  import opened Wrappers
  import opened LittleEndian

  /** "wtns" in ASCII. */
  const Magic: seq<byte> := [119, 116, 110, 115]
  const MaxVersion: nat := 2
  const SectionCount: nat := 2
  const HeaderSectionType: nat := 1
  /** Field size (4 bytes) + prime (32 bytes) + witness length (4 bytes). */
  const HeaderSectionSize: nat := 4 + 32 + 4
  const FieldSize: nat := 32
  const WitnessSectionType: nat := 2

  const VersionAt: nat := 4
  const CountAt: nat := 8
  const Section1TypeAt: nat := 12
  const Section1SizeAt: nat := 16
  const FieldSizeAt: nat := 24
  const PrimeAt: nat := 28
  const WitnessLenAt: nat := 60
  const Section2TypeAt: nat := 64
  const Section2SizeAt: nat := 68
  /** Offset of the first witness element. */
  const ElementsAt: nat := 76

  /** The field whose `read_exact` ran out of input. */
  datatype Item =
    | MagicBytes
    | VersionBytes
    | SectionCountBytes
    | SectionTypeBytes
    | SectionSizeBytes
    | FieldSizeBytes
    | PrimeBytes
    | WitnessLenBytes
    | Section2TypeBytes
    | Section2SizeBytes
    | ElementBytes(index: nat)

  /** One variant per panic of the reader. */
  datatype Error =
    | ShortRead(item: Item)
    | InvalidHeader
    | UnsupportedVersion(version: nat)
    | InvalidSectionCount(count: nat)
    | InvalidSectionType(sectionType: nat)
    | InvalidSectionSize(size: nat)
    | InvalidFieldSize(fieldSize: nat)
    | InvalidSection2Type(sectionType: nat)
    | MultiplyOverflow
    | InvalidWitnessSectionSize(size: nat)
    | InvalidFieldElement(index: nat)

  /** How `u32` multiplication behaves: a debug build panics on overflow, a
      release build wraps modulo 2^32. */
  datatype Profile = Debug | Release

  /** A field element, kept as the 32-byte representation it was decoded from.
      Which representations are canonical belongs to the scalar field and is
      a parameter (`canonical`) of the reader. */
  datatype Scalar = Scalar(repr: seq<byte>)

  /** What the header sections declare. */
  datatype Header = Header(version: nat, prime: seq<byte>, witnessLen: nat, witnessSectionSize: nat)

  // ---------------------------------------------------------------------------
  // The reader, step by step

  /** `read_exact` of `n` bytes when `at` bytes have already been consumed. */
  function Read(data: seq<byte>, at: nat, n: nat, item: Item): (r: Result<seq<byte>, Error>)
    ensures r.Success? <==> at + n <= |data|
    ensures r.Success? ==> r.value == data[at..at + n]
    ensures r.Failure? ==> r.error == ShortRead(item)
  {
    if at + n <= |data| then Success(data[at..at + n]) else Failure(ShortRead(item))
  }

  /** `read_exact` of four bytes, then `u32::from_le_bytes`: the value is a
      `u32` whose little-endian encoding is exactly the bytes read. */
  function ReadU32(data: seq<byte>, at: nat, item: Item): (r: Result<nat, Error>)
    ensures r.Success? <==> at + 4 <= |data|
    ensures r.Success? ==> r.value < U32Bound && ToLe(r.value, 4) == data[at..at + 4]
    ensures r.Failure? ==> r.error == ShortRead(item)
  {
    var b :- Read(data, at, 4, item);
    Pow256Four();
    ToLeFromLe(b);
    Success(FromLe(b))
  }

  /** `read_exact` of eight bytes, then `u64::from_le_bytes`. */
  function ReadU64(data: seq<byte>, at: nat, item: Item): (r: Result<nat, Error>)
    ensures r.Success? <==> at + 8 <= |data|
    ensures r.Success? ==> r.value < U32Bound * U32Bound && ToLe(r.value, 8) == data[at..at + 8]
    ensures r.Failure? ==> r.error == ShortRead(item)
  {
    var b :- Read(data, at, 8, item);
    Pow256Four();
    ToLeFromLe(b);
    Success(FromLe(b))
  }

  /** `a * b` evaluated in `u32`; `None` is the debug-build overflow panic. */
  function MulU32(a: nat, b: nat, profile: Profile): (r: Option<nat>)
    ensures a * b < U32Bound ==> r == Some(a * b)
    ensures profile == Release ==> r == Some((a * b) % U32Bound)
    ensures profile == Debug && a * b >= U32Bound ==> r == None
  {
    match profile
    case Debug => if a * b < U32Bound then Some(a * b) else None
    case Release => Some((a * b) % U32Bound)
  }

  /** The first checks of the reader, in file order: magic, version, section
      count, section 1 type and size, field size.  Yields the version. */
  function ParsePreamble(data: seq<byte>): (r: Result<nat, Error>)
    ensures r.Success? <==> PreambleOk(data)
    ensures r.Success? ==> r.value == U32At(data, VersionAt)
  {
    var magic :- Read(data, 0, 4, MagicBytes);
    if magic != Magic then Failure(InvalidHeader) else
    var version :- ReadU32(data, VersionAt, VersionBytes);
    if version > MaxVersion then Failure(UnsupportedVersion(version)) else
    var count :- ReadU32(data, CountAt, SectionCountBytes);
    if count != SectionCount then Failure(InvalidSectionCount(count)) else
    var type1 :- ReadU32(data, Section1TypeAt, SectionTypeBytes);
    if type1 != HeaderSectionType then Failure(InvalidSectionType(type1)) else
    var size1 :- ReadU64(data, Section1SizeAt, SectionSizeBytes);
    if size1 != HeaderSectionSize then Failure(InvalidSectionSize(size1)) else
    var fieldSize :- ReadU32(data, FieldSizeAt, FieldSizeBytes);
    if fieldSize != FieldSize then Failure(InvalidFieldSize(fieldSize)) else
    Success(version)
  }

  /** The reads after the prime: witness length, section 2 type and size, and
      the check of the size against `witness_len * field_size` (the field size
      is 32 by then).  Yields the witness length and the section 2 size. */
  function ParseWitnessSection(data: seq<byte>, profile: Profile): (r: Result<(nat, nat), Error>)
    ensures r.Success? <==> WitnessSectionOk(data, profile)
    ensures r.Success? ==> r.value == (U32At(data, WitnessLenAt), U64At(data, Section2SizeAt))
  {
    var witnessLen :- ReadU32(data, WitnessLenAt, WitnessLenBytes);
    var type2 :- ReadU32(data, Section2TypeAt, Section2TypeBytes);
    if type2 != WitnessSectionType then Failure(InvalidSection2Type(type2)) else
    var size2 :- ReadU64(data, Section2SizeAt, Section2SizeBytes);
    var expected := MulU32(witnessLen, FieldSize, profile);
    if expected.None? then Failure(MultiplyOverflow) else
    if size2 != expected.value then Failure(InvalidWitnessSectionSize(size2)) else
    Success((witnessLen, size2))
  }

  /** Everything the reader does before the witness elements. */
  function ParseHeader(data: seq<byte>, profile: Profile): (r: Result<Header, Error>)
    ensures r.Success? <==> HeaderOk(data, profile)
    ensures r.Success? ==>
              r.value == Header(U32At(data, VersionAt), data[PrimeAt..PrimeAt + 32],
                                U32At(data, WitnessLenAt), U64At(data, Section2SizeAt))
  {
    var version :- ParsePreamble(data);
    var prime :- Read(data, PrimeAt, 32, PrimeBytes);
    var section :- ParseWitnessSection(data, profile);
    Success(Header(version, prime, section.0, section.1))
  }

  /** The element loop from iteration `i` on: read 32 bytes, convert them with
      `from_repr`, stop at the first short read or non-canonical chunk. */
  function ReadElements(data: seq<byte>, count: nat, canonical: seq<byte> -> bool, i: nat)
    : (r: Result<seq<Scalar>, Error>)
    requires i <= count
    ensures r.Success? <==>
              i == count
              || (ElementsAt + FieldSize * count <= |data|
                  && forall j | i <= j < count :: canonical(Chunk(data, j)))
    ensures r.Success? ==>
              && |r.value| == count - i
              && forall k | 0 <= k < |r.value| :: r.value[k] == Scalar(Chunk(data, i + k))
    ensures r.Failure? ==> r.error.ShortRead? || r.error.InvalidFieldElement?
    decreases count - i
  {
    if i == count then Success([])
    else
      var chunk :- Read(data, ElementsAt + FieldSize * i, FieldSize, ElementBytes(i));
      assert chunk == Chunk(data, i);
      if !canonical(chunk) then Failure(InvalidFieldElement(i))
      else
        var rest :- ReadElements(data, count, canonical, i + 1);
        Success([Scalar(chunk)] + rest)
  }

  /** `load_witness_from_file` over the file's bytes.  Success exactly on
      well-formed input, and then element `i` is the `i`-th 32-byte chunk. */
  function Decode(data: seq<byte>, canonical: seq<byte> -> bool, profile: Profile)
    : (r: Result<seq<Scalar>, Error>)
    ensures r.Success? <==> WellFormed(data, canonical, profile)
    ensures r.Success? ==>
              && |data| >= ElementsAt
              && |r.value| == WitnessLen(data)
              && forall i | 0 <= i < |r.value| :: r.value[i] == Scalar(Chunk(data, i))
  {
    var h :- ParseHeader(data, profile);
    ReadElements(data, h.witnessLen, canonical, 0)
  }

  // ---------------------------------------------------------------------------
  // The format, stated declaratively by offsets

  function U32At(data: seq<byte>, at: nat): nat
    requires at + 4 <= |data|
  {
    FromLe(data[at..at + 4])
  }

  function U64At(data: seq<byte>, at: nat): nat
    requires at + 8 <= |data|
  {
    FromLe(data[at..at + 8])
  }

  /** The 32 bytes of witness element `i`. */
  function Chunk(data: seq<byte>, i: nat): seq<byte>
    requires ElementsAt + FieldSize * (i + 1) <= |data|
  {
    data[ElementsAt + FieldSize * i .. ElementsAt + FieldSize * i + FieldSize]
  }

  /** The section 2 size check (`witness_len * field_size` in `u32`) under
      each build profile. */
  predicate SizeMatches(size2: nat, witnessLen: nat, profile: Profile) {
    match profile
    case Debug => witnessLen * FieldSize < U32Bound && size2 == witnessLen * FieldSize
    case Release => size2 == (witnessLen * FieldSize) % U32Bound
  }

  /** The fields before the prime hold accepted values. */
  predicate PreambleOk(data: seq<byte>) {
    && |data| >= PrimeAt
    && data[..4] == Magic
    && U32At(data, VersionAt) <= MaxVersion
    && U32At(data, CountAt) == SectionCount
    && U32At(data, Section1TypeAt) == HeaderSectionType
    && U64At(data, Section1SizeAt) == HeaderSectionSize
    && U32At(data, FieldSizeAt) == FieldSize
  }

  /** The fields after the prime hold accepted values. */
  predicate WitnessSectionOk(data: seq<byte>, profile: Profile) {
    && |data| >= ElementsAt
    && U32At(data, Section2TypeAt) == WitnessSectionType
    && SizeMatches(U64At(data, Section2SizeAt), U32At(data, WitnessLenAt), profile)
  }

  /** Every fixed-offset header field holds an accepted value. */
  predicate HeaderOk(data: seq<byte>, profile: Profile) {
    PreambleOk(data) && WitnessSectionOk(data, profile)
  }

  function WitnessLen(data: seq<byte>): nat
    requires |data| >= ElementsAt
  {
    U32At(data, WitnessLenAt)
  }

  /** How many bytes a reader with this header consumes. */
  function Consumed(data: seq<byte>): nat
    requires |data| >= ElementsAt
  {
    ElementsAt + FieldSize * WitnessLen(data)
  }

  /** The files the reader accepts. */
  predicate WellFormed(data: seq<byte>, canonical: seq<byte> -> bool, profile: Profile) {
    && HeaderOk(data, profile)
    && Consumed(data) <= |data|
    && forall i | 0 <= i < WitnessLen(data) :: canonical(Chunk(data, i))
  }

  /** The checks on the fields that lie before offset `at` all pass. */
  predicate ChecksPassBefore(data: seq<byte>, at: nat) {
    && |data| >= at
    && (at >= VersionAt ==> data[..4] == Magic)
    && (at >= CountAt ==> U32At(data, VersionAt) <= MaxVersion)
    && (at >= Section1TypeAt ==> U32At(data, CountAt) == SectionCount)
    && (at >= Section1SizeAt ==> U32At(data, Section1TypeAt) == HeaderSectionType)
    && (at >= FieldSizeAt ==> U64At(data, Section1SizeAt) == HeaderSectionSize)
    && (at >= PrimeAt ==> U32At(data, FieldSizeAt) == FieldSize)
    && (at >= Section2SizeAt ==> U32At(data, Section2TypeAt) == WitnessSectionType)
  }

  // ---------------------------------------------------------------------------
  // Properties of the reader

  /** Anything that does not start with "wtns" is rejected before any other read. */
  lemma MagicChecked(data: seq<byte>, canonical: seq<byte> -> bool, profile: Profile)
    ensures |data| < 4 ==> Decode(data, canonical, profile) == Failure(ShortRead(MagicBytes))
    ensures |data| >= 4 && data[..4] != Magic ==> Decode(data, canonical, profile) == Failure(InvalidHeader)
  {
  }

  /** After the magic, a version above 2 is rejected, and only then is the
      error an unsupported version. */
  lemma VersionChecked(data: seq<byte>, canonical: seq<byte> -> bool, profile: Profile)
    requires ChecksPassBefore(data, VersionAt) && |data| >= VersionAt + 4
    ensures U32At(data, VersionAt) > MaxVersion
            <==> Decode(data, canonical, profile) == Failure(UnsupportedVersion(U32At(data, VersionAt)))
  {
  }

  /** The section count must be 2, and section 1 must have type 1 and size 40. */
  lemma SectionOneChecked(data: seq<byte>, canonical: seq<byte> -> bool, profile: Profile)
    requires ChecksPassBefore(data, CountAt) && |data| >= FieldSizeAt
    ensures U32At(data, CountAt) != SectionCount ==>
              Decode(data, canonical, profile) == Failure(InvalidSectionCount(U32At(data, CountAt)))
    ensures U32At(data, CountAt) == SectionCount && U32At(data, Section1TypeAt) != HeaderSectionType ==>
              Decode(data, canonical, profile) == Failure(InvalidSectionType(U32At(data, Section1TypeAt)))
    ensures U32At(data, CountAt) == SectionCount && U32At(data, Section1TypeAt) == HeaderSectionType
            && U64At(data, Section1SizeAt) != HeaderSectionSize ==>
              Decode(data, canonical, profile) == Failure(InvalidSectionSize(U64At(data, Section1SizeAt)))
  {
  }

  /** The field size must be 32. */
  lemma FieldSizeChecked(data: seq<byte>, canonical: seq<byte> -> bool, profile: Profile)
    requires ChecksPassBefore(data, FieldSizeAt) && |data| >= PrimeAt
    ensures U32At(data, FieldSizeAt) != FieldSize <==>
              Decode(data, canonical, profile) == Failure(InvalidFieldSize(U32At(data, FieldSizeAt)))
  {
  }

  /** The 32 prime bytes are read but never looked at: files that differ only
      there decode identically, successes and errors alike. */
  lemma PrimeIgnored(data: seq<byte>, data': seq<byte>, canonical: seq<byte> -> bool, profile: Profile)
    requires |data| == |data'|
    requires forall k | 0 <= k < |data| && !(PrimeAt <= k < PrimeAt + 32) :: data[k] == data'[k]
    ensures Decode(data, canonical, profile) == Decode(data', canonical, profile)
  {
    HeaderIgnoresPrime(data, data', profile);
    var h := ParseHeader(data, profile);
    if h.Success? {
      ReadElementsOnlyReadsElements(data, data', h.value.witnessLen, canonical, 0);
    }
  }

  /** Two inputs of one length that agree outside the prime get the same
      verdict and witness length from the header checks. */
  lemma HeaderIgnoresPrime(data: seq<byte>, data': seq<byte>, profile: Profile)
    requires |data| == |data'|
    requires forall k | 0 <= k < |data| && !(PrimeAt <= k < PrimeAt + 32) :: data[k] == data'[k]
    ensures var h, h' := ParseHeader(data, profile), ParseHeader(data', profile);
            && h.Success? == h'.Success?
            && (h.Failure? ==> h.error == h'.error)
            && (h.Success? ==> h.value.witnessLen == h'.value.witnessLen)
  {
    PreambleAgrees(data, data');
    WitnessSectionAgrees(data, data', profile);
  }

  /** The preamble checks read only bytes 0 to 28. */
  lemma PreambleAgrees(data: seq<byte>, data': seq<byte>)
    requires |data| == |data'|
    requires forall k | 0 <= k < |data| && k < PrimeAt :: data[k] == data'[k]
    ensures ParsePreamble(data) == ParsePreamble(data')
  {
    assert |data| >= 4 ==> data[..4] == data'[..4];
    assert |data| >= VersionAt + 4 ==> data[VersionAt..VersionAt + 4] == data'[VersionAt..VersionAt + 4];
    assert |data| >= CountAt + 4 ==> data[CountAt..CountAt + 4] == data'[CountAt..CountAt + 4];
    assert |data| >= Section1TypeAt + 4 ==>
      data[Section1TypeAt..Section1TypeAt + 4] == data'[Section1TypeAt..Section1TypeAt + 4];
    assert |data| >= Section1SizeAt + 8 ==>
      data[Section1SizeAt..Section1SizeAt + 8] == data'[Section1SizeAt..Section1SizeAt + 8];
    assert |data| >= FieldSizeAt + 4 ==>
      data[FieldSizeAt..FieldSizeAt + 4] == data'[FieldSizeAt..FieldSizeAt + 4];
  }

  /** The witness-section checks read only bytes 60 to 76. */
  lemma WitnessSectionAgrees(data: seq<byte>, data': seq<byte>, profile: Profile)
    requires |data| == |data'|
    requires forall k | PrimeAt + 32 <= k < |data| :: data[k] == data'[k]
    ensures ParseWitnessSection(data, profile) == ParseWitnessSection(data', profile)
  {
    assert |data| >= WitnessLenAt + 4 ==>
      data[WitnessLenAt..WitnessLenAt + 4] == data'[WitnessLenAt..WitnessLenAt + 4];
    assert |data| >= Section2TypeAt + 4 ==>
      data[Section2TypeAt..Section2TypeAt + 4] == data'[Section2TypeAt..Section2TypeAt + 4];
    assert |data| >= Section2SizeAt + 8 ==>
      data[Section2SizeAt..Section2SizeAt + 8] == data'[Section2SizeAt..Section2SizeAt + 8];
  }

  /** The element loop depends only on the bytes from offset 76 on. */
  lemma {:induction false} ReadElementsOnlyReadsElements(
    data: seq<byte>, data': seq<byte>, count: nat, canonical: seq<byte> -> bool, i: nat)
    requires i <= count
    requires |data| == |data'| >= ElementsAt
    requires data[ElementsAt..] == data'[ElementsAt..]
    ensures ReadElements(data, count, canonical, i) == ReadElements(data', count, canonical, i)
    decreases count - i
  {
    if i < count {
      var at := ElementsAt + FieldSize * i;
      if at + FieldSize <= |data| {
        assert data[at..at + FieldSize] == data[ElementsAt..][at - ElementsAt..at - ElementsAt + FieldSize];
        assert data'[at..at + FieldSize] == data'[ElementsAt..][at - ElementsAt..at - ElementsAt + FieldSize];
        ReadElementsOnlyReadsElements(data, data', count, canonical, i + 1);
      }
    }
  }

  /** Section 2 must have type 2. */
  lemma SectionTwoTypeChecked(data: seq<byte>, canonical: seq<byte> -> bool, profile: Profile)
    requires ChecksPassBefore(data, Section2TypeAt) && |data| >= Section2SizeAt
    ensures U32At(data, Section2TypeAt) != WitnessSectionType <==>
              Decode(data, canonical, profile) == Failure(InvalidSection2Type(U32At(data, Section2TypeAt)))
  {
  }

  /** Section 2's declared size must equal `witness_len * 32`: exactly while the
      product fits in `u32`; past that a debug build panics on the product and a
      release build compares against the product reduced modulo 2^32. */
  lemma SectionTwoSizeChecked(data: seq<byte>, canonical: seq<byte> -> bool, profile: Profile)
    requires ChecksPassBefore(data, Section2SizeAt) && |data| >= ElementsAt
    ensures var n, size := U32At(data, WitnessLenAt), U64At(data, Section2SizeAt);
            && (n * FieldSize < U32Bound && size != n * FieldSize ==>
                  Decode(data, canonical, profile) == Failure(InvalidWitnessSectionSize(size)))
            && (profile == Debug && n * FieldSize >= U32Bound ==>
                  Decode(data, canonical, profile) == Failure(MultiplyOverflow))
            && (profile == Release && size != (n * FieldSize) % U32Bound ==>
                  Decode(data, canonical, profile) == Failure(InvalidWitnessSectionSize(size)))
  {
  }

  /** Below 2^27 elements the product cannot overflow, so both builds read
      every file the same way. */
  lemma ProfilesAgree(data: seq<byte>, canonical: seq<byte> -> bool)
    requires |data| >= ElementsAt ==> WitnessLen(data) * FieldSize < U32Bound
    ensures Decode(data, canonical, Debug) == Decode(data, canonical, Release)
  {
  }

  /** A release build accepts a header whose section 2 claims 0 bytes for 2^27
      elements (the product wraps to 0) and rejects the honest size 2^32; a
      debug build panics on both. */
  lemma ReleaseWrapAtTwoToThe27(data: seq<byte>)
    requires ChecksPassBefore(data, Section2SizeAt) && |data| >= ElementsAt
    requires U32At(data, WitnessLenAt) == 0x800_0000
    ensures U64At(data, Section2SizeAt) == 0 ==> ParseHeader(data, Release).Success?
    ensures U64At(data, Section2SizeAt) == U32Bound ==>
              ParseHeader(data, Release) == Failure(InvalidWitnessSectionSize(U32Bound))
    ensures ParseHeader(data, Debug) == Failure(MultiplyOverflow)
  {
  }

  /** The element loop fails at the first non-canonical chunk. */
  lemma {:induction false} ReadElementsFirstBad(
    data: seq<byte>, count: nat, canonical: seq<byte> -> bool, i: nat, j: nat)
    requires i <= j < count
    requires ElementsAt + FieldSize * count <= |data|
    requires forall k | i <= k < j :: canonical(Chunk(data, k))
    requires !canonical(Chunk(data, j))
    ensures ReadElements(data, count, canonical, i) == Failure(InvalidFieldElement(j))
    decreases j - i
  {
    assert Chunk(data, i) == data[ElementsAt + FieldSize * i..ElementsAt + FieldSize * i + FieldSize];
    if i < j {
      assert canonical(Chunk(data, i));
      ReadElementsFirstBad(data, count, canonical, i + 1, j);
    }
  }

  /** A non-canonical element fails the whole file, and the error names the
      first such element. */
  lemma NonCanonicalRejected(data: seq<byte>, canonical: seq<byte> -> bool, profile: Profile, j: nat)
    requires HeaderOk(data, profile) && Consumed(data) <= |data|
    requires j < WitnessLen(data)
    requires forall k | 0 <= k < j :: canonical(Chunk(data, k))
    requires !canonical(Chunk(data, j))
    ensures Decode(data, canonical, profile) == Failure(InvalidFieldElement(j))
  {
    ReadElementsFirstBad(data, WitnessLen(data), canonical, 0, j);
  }

  /** When the input runs out inside element `m`, the loop fails reading `m`
      unless an earlier element was non-canonical. */
  lemma {:induction false} ReadElementsShort(
    data: seq<byte>, count: nat, canonical: seq<byte> -> bool, i: nat, m: nat)
    requires i <= m < count
    requires ElementsAt + FieldSize * m <= |data| < ElementsAt + FieldSize * (m + 1)
    requires forall k | i <= k < m :: canonical(Chunk(data, k))
    ensures ReadElements(data, count, canonical, i) == Failure(ShortRead(ElementBytes(m)))
    decreases m - i
  {
    if i < m {
      assert Chunk(data, i) == data[ElementsAt + FieldSize * i..ElementsAt + FieldSize * i + FieldSize];
      assert canonical(Chunk(data, i));
      ReadElementsShort(data, count, canonical, i + 1, m);
    }
  }

  /** Input shorter than `76 + 32 * witness_len` bytes is rejected; with a valid
      header and canonical elements so far, the error is the short read of
      the element the input ends in. */
  lemma ShortInputRejected(data: seq<byte>, canonical: seq<byte> -> bool, profile: Profile)
    requires HeaderOk(data, profile) && |data| < Consumed(data)
    ensures Decode(data, canonical, profile).Failure?
    ensures var m := (|data| - ElementsAt) / FieldSize;
            (forall k | 0 <= k < m :: canonical(Chunk(data, k))) ==>
              Decode(data, canonical, profile) == Failure(ShortRead(ElementBytes(m)))
  {
    var m := (|data| - ElementsAt) / FieldSize;
    if forall k | 0 <= k < m :: canonical(Chunk(data, k)) {
      ReadElementsShort(data, WitnessLen(data), canonical, 0, m);
    }
  }

  /** Bytes after the last element are never read: appending to an accepted
      file does not change the result, and the result is already decided by
      the first `76 + 32 * witness_len` bytes. */
  lemma TrailingBytesIgnored(data: seq<byte>, extra: seq<byte>, canonical: seq<byte> -> bool, profile: Profile)
    requires Decode(data, canonical, profile).Success?
    ensures Decode(data + extra, canonical, profile) == Decode(data, canonical, profile)
    ensures Decode(data[..Consumed(data)], canonical, profile) == Decode(data, canonical, profile)
  {
    assert (data + extra)[..|data|] == data;
    assert (data + extra)[WitnessLenAt..WitnessLenAt + 4] == data[WitnessLenAt..WitnessLenAt + 4];
    PrefixDecides(data + extra, |data|, canonical, profile);
    PrefixDecides(data, Consumed(data), canonical, profile);
  }

  /** A well-formed file decodes the same as any prefix that still holds all
      of its elements. */
  lemma PrefixDecides(data: seq<byte>, len: nat, canonical: seq<byte> -> bool, profile: Profile)
    requires ElementsAt <= len <= |data| && Consumed(data) <= len
    requires WellFormed(data[..len], canonical, profile) || WellFormed(data, canonical, profile)
    ensures Decode(data[..len], canonical, profile) == Decode(data, canonical, profile)
  {
    var p := data[..len];
    PrefixSameHeader(data, len, profile);
    forall i | 0 <= i < WitnessLen(data)
      ensures Chunk(p, i) == Chunk(data, i)
    {
    }
    var a := Decode(p, canonical, profile);
    var b := Decode(data, canonical, profile);
    assert a.Success? && b.Success?;
    assert a.value == b.value;
  }

  /** A prefix that keeps the whole header has the same header verdict and
      witness length. */
  lemma PrefixSameHeader(data: seq<byte>, len: nat, profile: Profile)
    requires ElementsAt <= len <= |data|
    ensures HeaderOk(data[..len], profile) == HeaderOk(data, profile)
    ensures WitnessLen(data[..len]) == WitnessLen(data)
  {
    var p := data[..len];
    assert p[..4] == data[..4];
    assert p[VersionAt..VersionAt + 4] == data[VersionAt..VersionAt + 4];
    assert p[CountAt..CountAt + 4] == data[CountAt..CountAt + 4];
    assert p[Section1TypeAt..Section1TypeAt + 4] == data[Section1TypeAt..Section1TypeAt + 4];
    assert p[Section1SizeAt..Section1SizeAt + 8] == data[Section1SizeAt..Section1SizeAt + 8];
    assert p[FieldSizeAt..FieldSizeAt + 4] == data[FieldSizeAt..FieldSizeAt + 4];
    assert p[WitnessLenAt..WitnessLenAt + 4] == data[WitnessLenAt..WitnessLenAt + 4];
    assert p[Section2TypeAt..Section2TypeAt + 4] == data[Section2TypeAt..Section2TypeAt + 4];
    assert p[Section2SizeAt..Section2SizeAt + 8] == data[Section2SizeAt..Section2SizeAt + 8];
  }
}

=== FILE: wtns_writer.dfy ===
/** The `.wtns` layout written out: the encoder the reader is the inverse of. */
module WtnsWriter {
  import opened Wrappers
  import opened LittleEndian
  import opened Wtns

  /** The element representations laid end to end, in order. */
  function Reprs(elems: seq<Scalar>): (r: seq<byte>)
    ensures (forall i | 0 <= i < |elems| :: |elems[i].repr| == FieldSize) ==> |r| == FieldSize * |elems|
  {
    if |elems| == 0 then [] else elems[0].repr + Reprs(elems[1..])
  }

  /** The 76 header bytes for a file of `n` elements. */
  function HeaderBytes(version: nat, prime: seq<byte>, n: nat): seq<byte> {
    Magic + ToLe(version, 4) + ToLe(SectionCount, 4) + ToLe(HeaderSectionType, 4)
    + ToLe(HeaderSectionSize, 8) + ToLe(FieldSize, 4) + prime + ToLe(n, 4)
    + ToLe(WitnessSectionType, 4) + ToLe(n * FieldSize, 8)
  }

  function Encode(version: nat, prime: seq<byte>, elems: seq<Scalar>): seq<byte> {
    HeaderBytes(version, prime, |elems|) + Reprs(elems)
  }

  /** Element `i`'s representation sits at offset `32 * i` of the concatenation. */
  lemma {:induction false} ReprsAt(elems: seq<Scalar>, i: nat)
    requires forall k | 0 <= k < |elems| :: |elems[k].repr| == FieldSize
    requires i < |elems|
    ensures |Reprs(elems)| == FieldSize * |elems|
    ensures Reprs(elems)[FieldSize * i..FieldSize * i + FieldSize] == elems[i].repr
  {
    var r := Reprs(elems);
    assert r == elems[0].repr + Reprs(elems[1..]);
    if i > 0 {
      ReprsAt(elems[1..], i - 1);
      assert r[FieldSize * i..FieldSize * i + FieldSize]
          == Reprs(elems[1..])[FieldSize * (i - 1)..FieldSize * (i - 1) + FieldSize];
    }
  }

  /** Where each field of the header bytes lies. */
  lemma HeaderSlices(version: nat, prime: seq<byte>, n: nat, body: seq<byte>)
    requires |prime| == 32
    ensures var d := HeaderBytes(version, prime, n) + body;
            && |d| == ElementsAt + |body|
            && d[..4] == Magic
            && d[VersionAt..VersionAt + 4] == ToLe(version, 4)
            && d[CountAt..CountAt + 4] == ToLe(SectionCount, 4)
            && d[Section1TypeAt..Section1TypeAt + 4] == ToLe(HeaderSectionType, 4)
            && d[Section1SizeAt..Section1SizeAt + 8] == ToLe(HeaderSectionSize, 8)
            && d[FieldSizeAt..FieldSizeAt + 4] == ToLe(FieldSize, 4)
            && d[PrimeAt..PrimeAt + 32] == prime
            && d[WitnessLenAt..WitnessLenAt + 4] == ToLe(n, 4)
            && d[Section2TypeAt..Section2TypeAt + 4] == ToLe(WitnessSectionType, 4)
            && d[Section2SizeAt..Section2SizeAt + 8] == ToLe(n * FieldSize, 8)
            && d[ElementsAt..] == body
  {
    var p1 := Magic + ToLe(version, 4);
    var p2 := p1 + ToLe(SectionCount, 4);
    var p3 := p2 + ToLe(HeaderSectionType, 4);
    var p4 := p3 + ToLe(HeaderSectionSize, 8);
    var p5 := p4 + ToLe(FieldSize, 4);
    var p6 := p5 + prime;
    var p7 := p6 + ToLe(n, 4);
    var p8 := p7 + ToLe(WitnessSectionType, 4);
    var p9 := p8 + ToLe(n * FieldSize, 8);
    var d := p9 + body;
    SliceAt(p9, body, d);
    SliceAt(p8, ToLe(n * FieldSize, 8), d);
    SliceAt(p7, ToLe(WitnessSectionType, 4), d);
    SliceAt(p6, ToLe(n, 4), d);
    SliceAt(p5, prime, d);
    SliceAt(p4, ToLe(FieldSize, 4), d);
    SliceAt(p3, ToLe(HeaderSectionSize, 8), d);
    SliceAt(p2, ToLe(HeaderSectionType, 4), d);
    SliceAt(p1, ToLe(SectionCount, 4), d);
    SliceAt(Magic, ToLe(version, 4), d);
  }

  /** In a sequence that starts with `p + x`, `x` sits right after `p`. */
  lemma SliceAt(p: seq<byte>, x: seq<byte>, d: seq<byte>)
    requires |p| + |x| <= |d| && d[..|p| + |x|] == p + x
    ensures d[..|p|] == p
    ensures d[|p|..|p| + |x|] == x
  {
    assert d[..|p|] == (p + x)[..|p|];
    assert d[|p|..|p| + |x|] == (p + x)[|p|..];
  }

  /** The header fields of an encoded file hold what was encoded. */
  lemma HeaderFields(version: nat, prime: seq<byte>, n: nat, body: seq<byte>)
    requires version <= MaxVersion && |prime| == 32 && n * FieldSize < U32Bound
    ensures var d := HeaderBytes(version, prime, n) + body;
            && |d| == ElementsAt + |body|
            && d[..4] == Magic
            && U32At(d, VersionAt) == version
            && U32At(d, CountAt) == SectionCount
            && U32At(d, Section1TypeAt) == HeaderSectionType
            && U64At(d, Section1SizeAt) == HeaderSectionSize
            && U32At(d, FieldSizeAt) == FieldSize
            && d[PrimeAt..PrimeAt + 32] == prime
            && U32At(d, WitnessLenAt) == n
            && U32At(d, Section2TypeAt) == WitnessSectionType
            && U64At(d, Section2SizeAt) == n * FieldSize
            && d[ElementsAt..] == body
  {
    HeaderSlices(version, prime, n, body);
    Pow256Four();
    assert U32Bound < U32Bound * U32Bound;
    FromLeToLe(version, 4);
    FromLeToLe(SectionCount, 4);
    FromLeToLe(HeaderSectionType, 4);
    FromLeToLe(HeaderSectionSize, 8);
    FromLeToLe(FieldSize, 4);
    FromLeToLe(n, 4);
    FromLeToLe(WitnessSectionType, 4);
    FromLeToLe(n * FieldSize, 8);
  }

  /** An encoded header passes every check of either build and announces
      `n` elements; the elements follow it. */
  lemma EncodedHeaderOk(version: nat, prime: seq<byte>, n: nat, body: seq<byte>, profile: Profile)
    requires version <= MaxVersion && |prime| == 32 && n * FieldSize < U32Bound
    ensures var d := HeaderBytes(version, prime, n) + body;
            && HeaderOk(d, profile)
            && WitnessLen(d) == n
            && |d| == ElementsAt + |body|
            && d[ElementsAt..] == body
  {
    HeaderFields(version, prime, n, body);
    var m := n * FieldSize;
    assert m % U32Bound == m;
  }

  /** Chunk `i` of an encoded file is the representation of element `i`. */
  lemma EncodedChunk(version: nat, prime: seq<byte>, elems: seq<Scalar>, i: nat)
    requires version <= MaxVersion && |prime| == 32
    requires |elems| * FieldSize < U32Bound
    requires forall k | 0 <= k < |elems| :: |elems[k].repr| == FieldSize
    requires i < |elems|
    ensures ElementsAt + FieldSize * (i + 1) <= |Encode(version, prime, elems)|
    ensures Chunk(Encode(version, prime, elems), i) == elems[i].repr
  {
    var d := Encode(version, prime, elems);
    var body := Reprs(elems);
    HeaderSlices(version, prime, |elems|, body);
    ReprsAt(elems, i);
    assert Chunk(d, i) == d[ElementsAt..][FieldSize * i..FieldSize * i + FieldSize];
  }

  /** Decoding an encoded file gives back its elements, for every accepted
      version, any prime, and either build, as long as `n * 32` fits in `u32`. */
  lemma DecodeEncode(version: nat, prime: seq<byte>, elems: seq<Scalar>,
                     canonical: seq<byte> -> bool, profile: Profile)
    requires version <= MaxVersion && |prime| == 32
    requires |elems| * FieldSize < U32Bound
    requires forall i | 0 <= i < |elems| :: |elems[i].repr| == FieldSize && canonical(elems[i].repr)
    ensures Decode(Encode(version, prime, elems), canonical, profile) == Success(elems)
  {
    var d := Encode(version, prime, elems);
    var n := |elems|;
    EncodedHeaderOk(version, prime, n, Reprs(elems), profile);
    forall i | 0 <= i < n
      ensures ElementsAt + FieldSize * (i + 1) <= |d| && Chunk(d, i) == elems[i].repr
    {
      EncodedChunk(version, prime, elems, i);
    }
    assert WellFormed(d, canonical, profile);
    var r := Decode(d, canonical, profile);
    assert r.value == elems;
  }

  /** The representations of the chunks `i..n` of a file are its bytes from
      `76 + 32 * i` to `76 + 32 * n`. */
  lemma {:induction false} ReprsOfChunks(data: seq<byte>, i: nat, n: nat)
    requires i <= n && ElementsAt + FieldSize * n <= |data|
    ensures Reprs(seq(n - i, k requires 0 <= k < n - i => Scalar(Chunk(data, i + k))))
            == data[ElementsAt + FieldSize * i..ElementsAt + FieldSize * n]
    decreases n - i
  {
    var elems := seq(n - i, k requires 0 <= k < n - i => Scalar(Chunk(data, i + k)));
    if i < n {
      ReprsOfChunks(data, i + 1, n);
      var tail := seq(n - (i + 1), k requires 0 <= k < n - (i + 1) => Scalar(Chunk(data, i + 1 + k)));
      assert elems[1..] == tail;
      assert Reprs(elems) == Chunk(data, i) + Reprs(tail);
      var a := ElementsAt + FieldSize * i;
      assert data[a..ElementsAt + FieldSize * n] == data[a..a + FieldSize] + data[a + FieldSize..ElementsAt + FieldSize * n];
    }
  }

  /** An accepted debug-build header is re-encoded to the very same 76 bytes. */
  lemma HeaderBytesOfHeader(data: seq<byte>)
    requires HeaderOk(data, Debug)
    ensures HeaderBytes(U32At(data, VersionAt), data[PrimeAt..PrimeAt + 32], WitnessLen(data)) == data[..ElementsAt]
  {
    ToLeFromLe(data[VersionAt..VersionAt + 4]);
    ToLeFromLe(data[CountAt..CountAt + 4]);
    ToLeFromLe(data[Section1TypeAt..Section1TypeAt + 4]);
    ToLeFromLe(data[Section1SizeAt..Section1SizeAt + 8]);
    ToLeFromLe(data[FieldSizeAt..FieldSizeAt + 4]);
    ToLeFromLe(data[WitnessLenAt..WitnessLenAt + 4]);
    ToLeFromLe(data[Section2TypeAt..Section2TypeAt + 4]);
    ToLeFromLe(data[Section2SizeAt..Section2SizeAt + 8]);
    assert data[..8] == data[..4] + data[4..8];
    assert data[..12] == data[..8] + data[8..12];
    assert data[..16] == data[..12] + data[12..16];
    assert data[..24] == data[..16] + data[16..24];
    assert data[..28] == data[..24] + data[24..28];
    assert data[..60] == data[..28] + data[28..60];
    assert data[..64] == data[..60] + data[60..64];
    assert data[..68] == data[..64] + data[64..68];
    assert data[..76] == data[..68] + data[68..76];
  }

  /** Conversely, whatever a debug build accepts is exactly the encoding of
      its version, prime and elements, followed by bytes it ignored. */
  lemma EncodeDecode(data: seq<byte>, canonical: seq<byte> -> bool)
    requires Decode(data, canonical, Debug).Success?
    ensures var elems := Decode(data, canonical, Debug).value;
            Encode(U32At(data, VersionAt), data[PrimeAt..PrimeAt + 32], elems) == data[..Consumed(data)]
  {
    var elems := Decode(data, canonical, Debug).value;
    var n := |elems|;
    assert elems == seq(n, k requires 0 <= k < n => Scalar(Chunk(data, 0 + k)));
    ReprsOfChunks(data, 0, n);
    HeaderBytesOfHeader(data);
    assert data[..Consumed(data)] == data[..ElementsAt] + data[ElementsAt..Consumed(data)];
  }
}
